=== FILE: README.md ===
# Heads-up hold'em decision model in Dafny

This project models `PokerDecisionModel` from `holdem.py`: one heads-up
poker hand between a hero and a scripted villain archetype (tight-passive,
loose-aggressive, scaredy cat). The model covers:

- the seat blinds and the per-street starting pot;
- the villain's response tables;
- the equity heuristic (rank values, suited/connected bonus, street decay,
  clamp to [0.05, 0.95]);
- the EV of a hero action over the response table;
- the hero's policy (bluff sizing, answering a bet, the river bet);
- the chip movements of one action/response pair;
- the street state machine;
- the hand loop that plays the hand out and awards the pot.

Modules, following the methods of the class:

| module | file | what |
|---|---|---|
| `PokerTypes` | types.dfy | the enums, a history entry, a decision record, the `Spot` an EV is priced at |
| `OpponentModel` | opponent.dfy | `opponent_response` as a table of (label, weight) pairs |
| `Equity` | equity.dfy | `estimate_equity` as a pure function, with its bounds and special cases |
| `EvCalculator` | ev.dfy | `calculate_ev` as a sum of terms over the table, with its closed forms |
| `ActionPolicy` | policy.dfy | `get_bluff_action`, `can_take_action`, the decision of `optimal_action` |
| `StageMachine` | stage.dfy | the transition function of `update_stage` |
| `Chips` | chips.dfy | the blinds and the clamped contributions of `execute_action` |
| `Holdem` | holdem.dfy | the class `PokerDecisionModel`: its fields, and each method written imperatively and proved against the functions above |

Randomness is passed in as parameters:

- The 70% re-raise draw (`random.random() < 0.7`) is a `bool` named `coin`.
- The villain's `random.choices` pick is a label carried by a `Draw`. A
  `Draw` holds one label for a {FOLD, CALL, RAISE} table and one for a
  {CHECK, BET} table. `Pick` selects the label that fits the hero's action
  (always FOLD after ALL_IN).
- The showdown draw `random.random()` is a real `showdownDraw`. The hero
  wins when it is below the showdown equity.

`SimulateHand` consumes one `Draw` per round. It returns `None` when the
draws run out before the hand reaches TERMINAL or SHOWDOWN.

Amounts are `real`, so arithmetic is exact. The zero-stack tests at
holdem.py:342 and holdem.py:477 still mean "the stack is empty". Every
contribution is clamped with `min`, so a side that puts in its whole stack
ends at exactly 0.

## Model

| member | source | states |
|---|---|---|
| PokerTypes.Min | holdem.py:207-208 | the result is at most each argument and equals one of them (Python's `min`) |
| OpponentModel.Response | holdem.py:84-105 | ALL_IN gives exactly {FOLD: 1.0} for every archetype; BET and RAISE get the labels FOLD, CALL, RAISE; every other action gets CHECK, BET; every weight lies in (0, 1] |
| OpponentModel.ResponseSumsToOne | holdem.py:84-105 | every response table's weights sum to 1 |
| OpponentModel.ProbOfKey | holdem.py:161 | with distinct labels, the probability of a label is the weight of the one entry that holds it |
| OpponentModel.Labels | holdem.py:272 | the label list has one label per entry, in table order |
| Equity.IndexOf | holdem.py:121 | `list.index`: None exactly when the character is absent, otherwise the first position holding it |
| Equity.RankValue | holdem.py:119-124 | a card's rank value lies in [0, 1]; an empty card or an unknown rank gives 0.3; a known rank gives its index over 12 |
| Equity.RankValues | holdem.py:118-124 | one value per hole card |
| Equity.RankValuesAt | holdem.py:119-122 | value i of the list is the value of card i |
| Equity.RankValuesExtend | holdem.py:119-122 | the loop's list grows by the next card's value |
| Equity.Estimate | holdem.py:107-151 | the equity always lies in [0.05, 0.95]; a first card containing 7 with a second card containing 2 gives 0.05 |
| Equity.RankSumBounds | holdem.py:127 | the sum of the rank values lies between 0 and the number of cards |
| Equity.StrengthInUnitRange | holdem.py:127 | the average rank value lies in [0, 1] |
| Equity.UnitQuotient | holdem.py:127 | a quotient s/n with 0 <= s <= n lies in [0, 1] |
| Equity.ConnectedOnlyForPairs | holdem.py:131-132 | with the literal threshold 0.083, two recognised ranks are connected iff they are the same rank, because adjacent ranks are 1/12 apart |
| Equity.StageFactor | holdem.py:142-148 | the street decay factor lies in [0.2, 1.0] and is 1.0 exactly at SHOWDOWN |
| Equity.StageFactorTable | holdem.py:142-148 | the decay factors are 0.8, 0.6, 0.4 and 0.2 on PREFLOP, FLOP, TURN and RIVER, and 1.0 at SHOWDOWN |
| Equity.StageFactorShrinks | holdem.py:142-148 | each later betting street (PREFLOP to RIVER) has a strictly smaller decay factor |
| Equity.ConnectedSymmetric | holdem.py:131-132 | the rank-distance test does not depend on the order of the two values, and equal values are always connected |
| Equity.Bonus | holdem.py:134-139 | the suited/connected bonus lies in [0, 0.15]; it is 0 iff neither holds, 0.15 iff both hold, 0.07 when only suited and 0.08 when only connected |
| Equity.Clamp | holdem.py:150 | the clamp lies in [0.05, 0.95], leaves a value in that range unchanged, and maps values above and below it to the nearer bound |
| Equity.IsSevenTwo | holdem.py:110 | the pin test, a 7 in the first card and a 2 in the second; `Estimate` gives 0.05 whenever it holds, and `SevenTwoIsOrderSensitive` shows that it depends on the card order |
| Equity.Connected | holdem.py:131-132 | two rank values at most 0.083 apart; `ConnectedSymmetric` and `ConnectedOnlyForPairs` state what that means for recognised ranks |
| Equity.Strength | holdem.py:127 | the mean rank value of the hand; `StrengthInUnitRange` puts it in [0, 1] and `TwoCardStrength` gives it for two cards |
| Equity.SevenValue | holdem.py:114-121 | a card whose rank character is 7 is worth 5/12, the first position of 7 in the rank string over 12 |
| Equity.TwoCardStrength | holdem.py:118-127 | the strength of two cards is the mean of their two rank values |
| Equity.PlainShowdownValue | holdem.py:127-151 | at SHOWDOWN (factor 1.0), an unpinned offsuit, unconnected pair of cards whose strength lies in [0.05, 0.95] is worth exactly its strength: no bonus, no decay, no clamping |
| Equity.SevenTwoIsOrderSensitive | holdem.py:110-151 | the 7-2 pin depends on card order: any two-character 2 then 7 of different suits, the first suit not a 7, is not pinned, and at showdown it is worth (0 + 5/12)/2 = 5/24 |
| EvCalculator.Ev | holdem.py:153-181 | FOLD is worth 0; ALL_IN is worth exactly the pot |
| EvCalculator.CallPenalty | holdem.py:169-172 | the cost factor of being called off the river is at least 1, and above 1 (1.3) exactly against the loose-aggressive archetype |
| EvCalculator.RaisePenalty | holdem.py:173-176 | the cost factor of being raised is at least the call penalty, and above 1 (1.5) exactly against the loose-aggressive archetype |
| EvCalculator.RiverCallPayoff | holdem.py:167-168 | a river call with equity 0 loses the bet, with equity 1 wins pot + 2·bet, and for any equity in [0, 1] lies between the two |
| EvCalculator.Term | holdem.py:162-179 | one response entry's term: BET (or any label other than FOLD, CALL, RAISE) adds 0; FOLD adds a non-negative share of the pot; RAISE, and CALL off the river, add a non-positive loss |
| EvCalculator.ResponseTermsDefined | holdem.py:165-166 | wherever the EV is defined, every label of the table can be priced (a river CALL needs the equity) |
| EvCalculator.SumTermsFrom | holdem.py:161-179 | the sum over the table from entry i is entry i's term plus the sum from i + 1 |
| EvCalculator.SumTermsUnrolled | holdem.py:161-179 | the sum over a table of two or three entries is the entries' terms added in order |
| EvCalculator.PassiveEvIsZero | holdem.py:158-179 | CHECK and CALL are worth 0 for any size: CHECK matches no branch, and BET adds 0 |
| EvCalculator.AggressiveEvOffRiver | holdem.py:161-176 | off the river, BET/RAISE are worth P(FOLD)·pot − P(CALL)·bet·call penalty − P(RAISE)·bet·raise penalty |
| EvCalculator.AggressiveEvOnRiver | holdem.py:161-176 | on the river the CALL term becomes P(CALL)·(e·(pot + 2·bet) − (1 − e)·bet), with e the equity estimate |
| EvCalculator.AggressiveProbs | holdem.py:161 | in a {FOLD, CALL, RAISE} table, the three probabilities are the three weights in order |
| EvCalculator.ScaredyCatPreflopRaise | holdem.py:161-176 | scaredy cat, preflop, a RAISE of 3.0 into a pot of 1.5 is worth 0.6 |
| EvCalculator.FlopBetPenalties | holdem.py:158-176 | a flop bet of 2.0 into 4.0 is worth 0.4 − 0.78 − 1.8 against the loose-aggressive villain (call and raise cost 1.3 and 1.5 times the bet) and 2.6 − 0.6 − 0.1 against the tight-passive villain (no penalty) |
| Chips.Blinds | holdem.py:46-52 | SB posts (hero 0.5, villain 1.0), BB posts (hero 1.0, villain 0.5), 1.5 in total either way; any other seat posts nothing |
| Chips.HeroContribution | holdem.py:259-267 | CHECK and FOLD put in nothing; other actions put in the size clamped to the stack, never more than the stack |
| Chips.VillainContribution | holdem.py:278-284 | CALL asks for the size, RAISE for twice it, BET for half the pot, each clamped to the villain's stack; other responses put in nothing |
| ActionPolicy.BluffAction | holdem.py:183-194 | preflop the bluff is a RAISE of 3.0; later it is a BET of 0.4 × pot against the scaredy cat, 0.6 × pot against the tight-passive and 0.5 × pot against the loose-aggressive archetype |
| ActionPolicy.CanTakeAction | holdem.py:196-200 | CHECK and FOLD are always allowed; with an empty stack nothing else is |
| ActionPolicy.FacingBet | holdem.py:234-244 | there is no bet to answer with an empty history or when the hero acted last; a bet to answer is always a BET or RAISE |
| ActionPolicy.Choose | holdem.py:202-232 | the policy never chooses FOLD or ALL_IN, and the size always lies in [0, hero stack] |
| ActionPolicy.FacingBetChoice | holdem.py:205-219 | facing a bet b, the hero raises min(2b, stack) iff the draw says so and that exceeds the call; otherwise it calls min(b, stack); the CHECK/CALL re-raise branch never fires |
| ActionPolicy.NoBetChoice | holdem.py:221-232 | with no bet to answer the hero never calls; on the river it bets half the pot when the stack covers it; earlier it takes the bluff action when stack and pot are positive; it checks iff it is before the river and either the stack is empty or the bluff size is 0 |
| ActionPolicy.ChosenActionAllowed | holdem.py:196-200 | the chosen action with a positive size, or a check, is one `can_take_action` allows |
| ActionPolicy.ScaredyCatOpeningRaise | holdem.py:183-186 | at the start of a hand against the scaredy cat, the hero raises 3.0, worth 0.6 |
| ActionPolicy.PostflopBluffEvSign | holdem.py:161-194 | an unclamped flop/turn bluff loses on average iff the villain is loose-aggressive |
| StageMachine.Advance | holdem.py:321-328 | each street moves one step along PREFLOP → FLOP → TURN → RIVER → SHOWDOWN; SHOWDOWN and TERMINAL stay put |
| StageMachine.StreetClosed | holdem.py:320-331 | a street closes only on a trailing CHECK or CALL, and a trailing CALL always closes it |
| StageMachine.NextStage | holdem.py:309-343 | fewer than 2 entries change nothing; a FOLD in either of the last two entries gives TERMINAL, before the stack test; otherwise an empty stack gives SHOWDOWN, and a closed street advances one step |
| StageMachine.TrailingCallAdvances | holdem.py:330-339 | a trailing CALL always closes the street, because a CALL is never a bet to answer |
| StageMachine.NeverMovesBack | holdem.py:309-343 | the stage never moves back; it advances by at most one street unless a fold or an empty stack ends the betting |
| Holdem.Pick | holdem.py:270-275 | with a valid draw, the picked response is a label of the table the hero's action draws from |
| Holdem.AverageEv | holdem.py:524 | with decisions, the average times the count is the total; without decisions it is 0 |
| Holdem.ValidDraw | holdem.py:268-275 | the draws `random.choices` can make: FOLD, CALL or RAISE from the table answering a BET/RAISE, CHECK or BET from the other; `Pick` shows the label it picks is a key of the table used |
| Holdem.StartingStage | holdem.py:69-82 | a hand starts on RIVER iff a river card is given, on TURN iff a turn but no river is given, on PREFLOP iff no board is given, and never at SHOWDOWN or TERMINAL |
| Holdem.StartingPot | holdem.py:69-82 | the preflop pot is the two blinds, 1.5, and no street starts with less |
| Holdem.StartingPotDoubles | holdem.py:74-82 | the turn and river start with twice the previous street's pot (4, 8, 16) |
| Holdem.PokerDecisionModel.constructor | holdem.py:30-56 | the start state: PREFLOP, pot 1.5, empty logs, the initial stack snapshot, and the blinds deducted by seat; the chips are valid when both stacks cover a blind |
| Holdem.PokerDecisionModel.StartHand | holdem.py:58-82 | the logs are reset and the stack is snapshotted; the board is the flop plus the turn and river given; the street is the last one given, with its fixed pot (1.5, 4, 8, 16) |
| Holdem.PokerDecisionModel.EstimateEquity | holdem.py:107-151 | the loop computes `Equity.Estimate` of the hole cards on the current street |
| Holdem.PokerDecisionModel.ResponseTerm | holdem.py:162-179 | one loop step adds the term `EvCalculator.Term` gives for the entry |
| Holdem.PokerDecisionModel.CalculateEv | holdem.py:153-181 | the accumulating loop returns `EvCalculator.Ev` of the current spot |
| Holdem.PokerDecisionModel.IsBetInFront | holdem.py:234-244 | the result is true iff the last entry is a villain BET or RAISE; only `last_bet_amount` changes, to that entry's amount |
| Holdem.PokerDecisionModel.OptimalAction | holdem.py:202-232 | returns the policy's choice and its EV; only `last_bet_amount` changes |
| Holdem.PokerDecisionModel.ExecuteAction | holdem.py:246-307 | appends one HERO then one VILLAIN entry to the history and the decision log; moves both clamped contributions into the pot; conserves pot + stacks; keeps stacks, pot and amounts non-negative for a non-negative size |
| Holdem.PokerDecisionModel.UpdateStage | holdem.py:309-343 | the new stage is `StageMachine.NextStage` of the history; `last_bet_amount` is kept |
| Holdem.PokerDecisionModel.PlayRound | holdem.py:452-479 | one round, stated over the state before it: the policy's choice and its EV; the drawn response; both stacks, the pot, the history and the decision log as `execute_action` leaves them (two entries, two records with the street, pot and stack they were taken at); `last_bet_amount` as the bet test leaves it; a FOLD response ends at TERMINAL, an empty stack at SHOWDOWN, otherwise the street machine decides |
| Holdem.PaidByRound | holdem.py:259-284 | a round adds the hero's clamped contribution to what the hero has paid and the villain's recorded amount to what the villain has paid |
| Holdem.EvsMatchRound | holdem.py:453-457 | appending a round's EV and its two records keeps every logged EV tied to the hero record of its own round |
| Holdem.Round | holdem.py:453-479 | one pass of the loop body as a function of the state: `optimal_action`'s choice, `execute_action` with the drawn response, then `update_stage`; its guarantees are stated by `RoundFacts` and `RoundIs` |
| Holdem.RoundEv | holdem.py:454 | the EV `optimal_action` returns in a round; `StepLogsItsEv` ties it to the round's hero record |
| Holdem.RoundFacts | holdem.py:453-479 | one pass of the loop body (decide, execute, update the street) appends one HERO and one VILLAIN entry and two decision records that repeat them, taken at the street, pot and stack of the round; each stack drops by what its record shows it paid and the pot grows by both; the stage never moves back; the hand is at TERMINAL exactly when the villain's entry is a FOLD |
| Holdem.RoundIs | holdem.py:453-479 | any state whose fields are what `optimal_action`, `execute_action` and `update_stage` leave behind, for the policy's choice and the drawn response, is the round's state |
| Holdem.Step | holdem.py:453-479 | a round with its EV logged: the history and the decision log grow by two entries and keep their prefix, the EV log grows by one; the chips on the table are conserved; the stage never moves back |
| Holdem.StepLogsItsEv | holdem.py:454-457 | the EV a round logs is the EV of the spot, action and size of that round's hero record |
| Holdem.StepEndsWithVillain | holdem.py:462-474 | a round ends with the villain's entry, and it ends the hand at TERMINAL exactly when that entry is a FOLD |
| Holdem.Play | holdem.py:452-484 | the `while` loop as a function of the state: one `Step` per draw until TERMINAL or SHOWDOWN; its guarantees are stated by `PlayGrows`, `PlayConservesChips`, `PlayValid`, `FoldEndsTheHand` and `HandAccounted` |
| Holdem.PlayOn | holdem.py:452-479 | the loop once its condition holds: the round on the first draw, then the loop on the rest |
| Holdem.PlayGrows | holdem.py:452-484 | the hand loop appends two history entries, two records and one EV per round it plays and keeps all three prefixes; it plays one round per draw unless it stops at TERMINAL or SHOWDOWN; the stage never moves back |
| Holdem.PlayConservesChips | holdem.py:452-484 | the hand loop only moves chips between the two stacks and the pot |
| Holdem.FoldEndsTheHand | holdem.py:452-474 | a hand the loop brings to TERMINAL ends with a villain FOLD, because the hero never folds; so the fold branch of the resolution always pays the hero |
| Holdem.RoundValid | holdem.py:259-284 | a round keeps the pot, both stacks and every history amount non-negative |
| Holdem.PlayValid | holdem.py:452-484 | the hand loop keeps the pot, both stacks and every history amount non-negative |
| Holdem.HandAccounted | holdem.py:452-479 | over the whole hand loop, logged EV k is the EV of decision record 2k's spot, action and size; each stack is its start minus what its records show it paid, and the pot its start plus what both paid |
| Holdem.PokerDecisionModel.LoggedRound | holdem.py:453-479 | one round plus `decision_evs.append`: the new state is exactly `Step` of the old state and the draw, and the returned EV is the one appended |
| Holdem.PokerDecisionModel.PlayRounds | holdem.py:452-484 | the `while` loop, for draws `random.choices` can make: the new state is exactly `Play` of the old state over the draws (one round per draw until TERMINAL or SHOWDOWN); the count is the number of EVs appended and the total is their sum |
| Holdem.PokerDecisionModel.AwardPot | holdem.py:494-514 | the winner's stack grows by exactly the pot; the other stack is unchanged |
| Holdem.PokerDecisionModel.Resolve | holdem.py:490-514 | at TERMINAL the hero wins iff the last entry is a villain FOLD; at SHOWDOWN the hero wins iff the draw is below the showdown equity; the winner takes the pot, so the two stacks hold all the chips |
| Holdem.PokerDecisionModel.Settle | holdem.py:486-526 | a hand at TERMINAL or SHOWDOWN is resolved by `Resolve` and reported with net profit = stack − initial stack, the given total and count, and their average; any other hand gives `None` and keeps both stacks |
| Holdem.PokerDecisionModel.SimulateHand | holdem.py:442-526 | the stage, pot, history, decision log, EV log and last bet are exactly those of `Play` from the starting state over the draws; `None` iff the hand is neither folded nor at showdown, with the stacks `Play` leaves; otherwise the winner's stack is `Play`'s plus the pot and the loser's is `Play`'s; the result holds the count and sum of the EVs logged in this hand, their average and the net profit; all chips end in the two stacks; at TERMINAL the hero wins iff the last entry is a villain FOLD, and always when the loop itself folded the hand; at SHOWDOWN the hero wins iff the draw is below the showdown equity; valid chips stay valid |
| Holdem.OpeningRaiseAgainstScaredyCat | holdem.py:202-232 | a new button hand against the scaredy cat, dealt 7♦ 2♣ preflop, opens with a RAISE of 3.0 worth 0.6, whatever the re-raise draw |

## Left out

- `visualize_decision_tree` (holdem.py:345-438) is not modelled: it renders with matplotlib and networkx.
- The `verbose` prints in `simulate_hand` and the `__main__` demo are left out. This includes its per-archetype averaging and its random hole cards (holdem.py:538-621).
- Random draws are parameters (`coin`, `Draw`, `showdownDraw`), not a sampler. The model holds for every outcome. It does not capture the draws' distribution.
- Floats are exact reals, so the model does not capture IEEE rounding.
- Exceptions are preconditions:
  - `WellFormedHand` requires two cards of at least two characters, because holdem.py:110 and holdem.py:130 index outside any `try`.
  - `EquityDefined` also requires a stage with a decay factor.
  - The TERMINAL resolution requires a non-empty history.
- Holdem.PokerDecisionModel.SimulateHand: the `except Exception: break` path (holdem.py:481-484) is not modelled. That path can resolve a hand that is neither folded nor at showdown through the showdown branch. Under the preconditions no exception arises.
- Holdem.PokerDecisionModel.SimulateHand: termination of the `while` loop is modelled by the finite `draws` sequence. Running out of draws returns `None`, where the source would keep playing.
- Holdem.PokerDecisionModel.StartHand: `self.community_cards = flop` aliases the caller's list, and appending the turn and river then changes that list too. The model copies the sequence instead.
- Holdem.PokerDecisionModel.StartHand: a missing flop, turn or river is the empty sequence or string. Python's `None` and an empty value are both falsy there.
- Holdem.PokerDecisionModel.ExecuteAction: the villain response is a parameter, not drawn inside. The method accepts any label. `PlayRounds` and `SimulateHand` require every draw to be one `random.choices` can make (`ValidDraw`), and the `Pick` contract shows that the label a valid draw picks is a key of the response table.
- Holdem.PokerDecisionModel.PlayRounds: the body of the `while` loop is factored into `LoggedRound` (the EV append) and `PlayRound` (decide, execute, update the street), and what follows the loop into `Settle` and `Resolve`. What each side has paid is read off the decision log (`PaidBy`).
- Default arguments are not modelled: the model's constructor takes the archetype, seat and both stacks that `__init__` defaults to TIGHT_PASSIVE, "BTN", 100 and 100 (holdem.py:30), and `EvCalculator.Ev` takes the size that `calculate_ev` defaults to 0 (holdem.py:153). A caller passes those values explicitly.
- The field `opponent_aggression` (holdem.py:56) is never read, so it is not modelled.
- `action_count` is kept as a field and reset, as the source does. The source never increments it.
- History entries use the action enum where the source stores names (`action.name`, "FOLD", ...). The comparisons are the same.
- Holdem.PokerDecisionModel.EstimateEquity: the stage-factor lookup is the function `Equity.StageFactor`. TERMINAL, which has no entry and raises `KeyError`, is excluded by the precondition.

=== FILE: chips.dfy ===
/** How many chips each side puts in: blinds at the table, and the clamped
    contributions of PokerDecisionModel.execute_action. */
module Chips {
  import opened PokerTypes

  /** The blinds deducted from (hero, villain) by the hero's seat. */
  function Blinds(position: string): (b: (real, real))
    ensures position == "SB" || position == "BB" ==> b.0 + b.1 == 1.5
    ensures position == "SB" ==> b == (0.5, 1.0)
    ensures position == "BB" ==> b == (1.0, 0.5)
    ensures position != "SB" && position != "BB" ==> b == (0.0, 0.0)
  {
    if position == "SB" then (0.5, 1.0)
    else if position == "BB" then (1.0, 0.5)
    else (0.0, 0.0)
  }

  /** The hero's chips into the pot: CALL, BET, RAISE and ALL_IN put in the
      size clamped to the stack; CHECK and FOLD put in nothing. */
  function HeroContribution(a: Action, size: real, stack: real): (c: real)
    ensures a == Check || a == Fold ==> c == 0.0
    ensures 0.0 <= size && 0.0 <= stack ==> 0.0 <= c <= stack
    ensures a != Check && a != Fold && size >= stack ==> c == stack
    ensures a != Check && a != Fold && size <= stack ==> c == size
  {
    match a
    case Call => Min(size, stack)
    case Bet | Raise | AllIn => Min(size, stack)
    case _ => 0.0
  }

  /** The chips the villain's response wants before clamping: the hero's
      size for CALL, twice it for RAISE, half the pot for BET. */
  function Requested(resp: Action, size: real, pot: real): real
  {
    match resp
    case Call => size
    case Raise => size * 2.0
    case Bet => pot * 0.5
    case _ => 0.0
  }

  /** The villain's chips into the pot (resp_amount): the request clamped to
      the villain's stack; FOLD and CHECK put in nothing. */
  function VillainContribution(resp: Action, size: real, pot: real, stack: real): (c: real)
    ensures resp != Call && resp != Raise && resp != Bet ==> c == 0.0
    ensures 0.0 <= size && 0.0 <= pot && 0.0 <= stack ==> 0.0 <= c <= stack
    ensures (resp == Call || resp == Raise || resp == Bet) ==>
      c == (if Requested(resp, size, pot) <= stack then Requested(resp, size, pot) else stack)
  {
    if resp == Call then Min(size, stack)
    else if resp == Raise then Min(size * 2.0, stack)
    else if resp == Bet then Min(pot * 0.5, stack)
    else 0.0
  }
}

=== FILE: equity.dfy ===
/** The heuristic win probability of the hero's hole cards on a street
    (PokerDecisionModel.estimate_equity). */
module Equity {
  import opened PokerTypes

  /** The rank characters in ascending order; a rank's value is its
      position divided by 12. */
  function Ranks(): string { "23456789TJQKA" }

  /** Python's list.index: the first position holding c, None where the
      source raises ValueError. */
  function IndexOf(s: string, c: char): (r: Option<nat>)
    ensures r.None? <==> c !in s
    ensures r.Some? ==> r.value < |s| && s[r.value] == c && c !in s[..r.value]
  {
    if |s| == 0 then None
    else if s[0] == c then Some(0)
    else
      match IndexOf(s[1..], c)
      case None => None
      case Some(i) =>
        assert s[..i + 1] == [s[0]] + s[1..][..i];
        Some(i + 1)
  }

  /** The value of one card's rank on a 0..1 scale; a card that is empty or
      whose first character is not a rank gets the default 0.3. */
  function RankValue(card: string): (v: real)
    ensures 0.0 <= v <= 1.0
    ensures |card| == 0 || card[0] !in Ranks() ==> v == 0.3
    ensures |card| > 0 && card[0] in Ranks() ==> v * 12.0 == IndexOf(Ranks(), card[0]).value as real
  {
    if |card| > 0 && card[0] in Ranks() then
      var i := IndexOf(Ranks(), card[0]).value;
      (i as real) / 12.0
    else 0.3
  }

  /** The list of rank values the source builds, one per hole card. */
  function RankValues(cards: seq<string>): (vs: seq<real>)
    ensures |vs| == |cards|
  {
    if cards == [] then [] else RankValues(cards[..|cards| - 1]) + [RankValue(cards[|cards| - 1])]
  }

  /** The stage decay table; TERMINAL has no entry. */
  function StageFactor(s: Stage): (f: real)
    requires s != Terminal
    ensures 0.2 <= f <= 1.0
    ensures f == 1.0 <==> s == Showdown
  {
    match s
    case Preflop => 0.8
    case Flop => 0.6
    case Turn => 0.4
    case River => 0.2
    case Showdown => 1.0
  }

  /** The decay factors: 0.8, 0.6, 0.4 and 0.2 over the four betting
      streets, 1.0 at showdown. */
  lemma StageFactorTable()
    ensures StageFactor(Preflop) == 0.8 && StageFactor(Flop) == 0.6
    ensures StageFactor(Turn) == 0.4 && StageFactor(River) == 0.2
    ensures StageFactor(Showdown) == 1.0
  {
  }

  /** Each later betting street decays the strength more. */
  lemma StageFactorShrinks(s: Stage, t: Stage)
    requires StageIndex(s) < StageIndex(t) <= StageIndex(River)
    ensures StageFactor(t) < StageFactor(s)
  {
  }

  /** The rank-distance test does not depend on the order of the two
      values, and a pair is always connected. */
  lemma ConnectedSymmetric(v0: real, v1: real)
    ensures Connected(v0, v1) == Connected(v1, v0)
    ensures Connected(v0, v0)
  {
  }

  /** A strength scaled by the street's decay factor. */
  function Decayed(x: real, s: Stage): real
    requires s != Terminal
  {
    x * StageFactor(s)
  }

  /** The rank-distance test, with the literal threshold 0.083. */
  predicate Connected(v0: real, v1: real)
  {
    (if v0 >= v1 then v0 - v1 else v1 - v0) <= 0.083
  }

  /** The suited/connected bonus: nothing for neither, the most for both,
      and 0.07 or 0.08 for exactly one of the two. */
  function Bonus(suited: bool, connected: bool): (b: real)
    ensures 0.0 <= b <= 0.15
    ensures b == 0.0 <==> !suited && !connected
    ensures b == 0.15 <==> suited && connected
    ensures suited && !connected ==> b == 0.07
    ensures !suited && connected ==> b == 0.08
  {
    if suited && connected then 0.15
    else if suited then 0.07
    else if connected then 0.08
    else 0.0
  }

  /** max(0.05, min(0.95, x)). */
  function Clamp(x: real): (c: real)
    ensures 0.05 <= c <= 0.95
    ensures 0.05 <= x <= 0.95 ==> c == x
    ensures x > 0.95 ==> c == 0.95
    ensures x < 0.05 ==> c == 0.05
  {
    if 0.95 <= x then 0.95 else if x <= 0.05 then 0.05 else x
  }

  /** The pinned weak hand: the first card contains a 7 and the second a 2
      (the test is a substring test and depends on the order). */
  predicate IsSevenTwo(cards: seq<string>)
    requires |cards| >= 2
  {
    '7' in cards[0] && '2' in cards[1]
  }

  /** The inputs on which the source returns instead of raising: two
      cards at least, and either the pinned hand or two readable suits and
      a stage with a decay factor. */
  predicate EquityDefined(cards: seq<string>, stage: Stage)
  {
    |cards| >= 2 && (IsSevenTwo(cards) || (|cards[0]| >= 2 && |cards[1]| >= 2 && stage != Terminal))
  }

  /** The average rank value of the hand. */
  function Strength(cards: seq<string>): real
    requires |cards| > 0
  {
    SumReals(RankValues(cards)) / (|cards| as real)
  }

  function Estimate(cards: seq<string>, stage: Stage): (e: real)
    requires EquityDefined(cards, stage)
    ensures 0.05 <= e <= 0.95
    ensures IsSevenTwo(cards) ==> e == 0.05
  {
    if IsSevenTwo(cards) then 0.05
    else
      var values := RankValues(cards);
      var suited := cards[0][1] == cards[1][1];
      var connected := Connected(values[0], values[1]);
      Clamp(Decayed(Strength(cards) + Bonus(suited, connected), stage))
  }

  /** Every rank value lies in [0, 1], so their sum lies in [0, n]. */
  lemma {:induction false} RankSumBounds(cards: seq<string>)
    ensures 0.0 <= SumReals(RankValues(cards)) <= |cards| as real
  {
    if cards != [] {
      var init := cards[..|cards| - 1];
      RankSumBounds(init);
      var vs := RankValues(cards);
      assert vs[..|vs| - 1] == RankValues(init);
    }
  }

  /** The base strength is a value on the 0..1 scale, as each rank value is. */
  lemma StrengthInUnitRange(cards: seq<string>)
    requires |cards| > 0
    ensures 0.0 <= Strength(cards) <= 1.0
  {
    RankSumBounds(cards);
    UnitQuotient(SumReals(RankValues(cards)), |cards| as real);
  }

  lemma UnitQuotient(s: real, n: real)
    requires 0.0 <= s <= n && 0.0 < n
    ensures 0.0 <= s / n <= 1.0
  {
    var q := s / n;
    assert q * n == s;
    assert (1.0 - q) * n == n - s;
  }

  /** The value list of a prefix grows by the value of the next card. */
  lemma RankValuesExtend(cards: seq<string>, k: nat)
    requires k < |cards|
    ensures RankValues(cards[..k + 1]) == RankValues(cards[..k]) + [RankValue(cards[k])]
  {
    var next := cards[..k + 1];
    assert next[..|next| - 1] == cards[..k];
  }

  /** The element i of the value list is the value of card i. */
  lemma {:induction false} RankValuesAt(cards: seq<string>, i: nat)
    requires i < |cards|
    ensures RankValues(cards)[i] == RankValue(cards[i])
  {
    if i < |cards| - 1 {
      RankValuesAt(cards[..|cards| - 1], i);
    }
  }

  /** With 0.083 rather than 1/12 as the threshold, two recognised ranks are
      "connected" exactly when they are the same rank: adjacent ranks are
      1/12 apart, which is more than 0.083. */
  lemma ConnectedOnlyForPairs(c0: string, c1: string)
    requires |c0| > 0 && |c1| > 0 && c0[0] in Ranks() && c1[0] in Ranks()
    ensures Connected(RankValue(c0), RankValue(c1)) <==> c0[0] == c1[0]
  {
    var i := IndexOf(Ranks(), c0[0]).value;
    var j := IndexOf(Ranks(), c1[0]).value;
    if c0[0] != c1[0] {
      assert i != j;
    }
  }

  /** The first occurrence of c is at k when s[k] is c and no earlier
      character is. */
  lemma IndexOfFirst(s: string, c: char, k: nat)
    requires k < |s| && s[k] == c
    requires forall j :: 0 <= j < k ==> s[j] != c
    ensures IndexOf(s, c) == Some(k)
  {
  }

  /** A seven is worth 5/12: five ranks lie below it. */
  lemma SevenValue(card: string)
    requires |card| > 0 && card[0] == '7'
    ensures RankValue(card) == 5.0 / 12.0
  {
    var ranks := Ranks();
    assert ranks[0] == '2' && ranks[1] == '3' && ranks[2] == '4' && ranks[3] == '5' && ranks[4] == '6';
    assert ranks[5] == '7';
    IndexOfFirst(ranks, '7', 5);
  }

  /** Two cards are worth the mean of their two rank values. */
  lemma TwoCardStrength(cards: seq<string>)
    requires |cards| == 2
    ensures Strength(cards) == (RankValue(cards[0]) + RankValue(cards[1])) / 2.0
  {
    var vs := RankValues(cards);
    RankValuesAt(cards, 0);
    RankValuesAt(cards, 1);
    var first := vs[..1];
    assert first[..0] == [] && first[0] == vs[0];
    assert SumReals(vs) == SumReals(first) + vs[1];
  }

  /** At showdown an unpinned offsuit pair of cards that is not connected
      and whose strength needs no clamping is worth exactly its strength. */
  lemma PlainShowdownValue(cards: seq<string>)
    requires |cards| == 2 && |cards[0]| >= 2 && |cards[1]| >= 2 && !IsSevenTwo(cards)
    requires cards[0][1] != cards[1][1] && !Connected(RankValue(cards[0]), RankValue(cards[1]))
    requires 0.05 <= Strength(cards) <= 0.95
    ensures Estimate(cards, Showdown) == Strength(cards)
  {
    RankValuesAt(cards, 0);
    RankValuesAt(cards, 1);
  }

  /** The pin is order-sensitive: a 2 then a 7 of different suits is not
      pinned, and at showdown it is worth the plain average (0 + 5/12) / 2. */
  lemma SevenTwoIsOrderSensitive(c0: string, c1: string)
    requires |c0| == 2 && |c1| == 2 && c0[0] == '2' && c1[0] == '7'
    requires c0[1] != c1[1] && c0[1] != '7'
    ensures !IsSevenTwo([c0, c1])
    ensures Estimate([c0, c1], Showdown) == 5.0 / 24.0
  {
    var cards := [c0, c1];
    assert cards[0] == c0 && cards[1] == c1;
    assert '7' !in c0 by { assert c0 == [c0[0], c0[1]]; }
    var v0, v1 := RankValue(c0), RankValue(c1);
    assert v0 == 0.0 by { assert c0[0] == Ranks()[0]; }
    assert v1 == 5.0 / 12.0 by { SevenValue(c1); }
    assert !Connected(v0, v1);
    assert Strength(cards) == 5.0 / 24.0 by { TwoCardStrength(cards); }
    PlainShowdownValue(cards);
  }

}

=== FILE: ev.dfy ===
/** The expected value of a hero action: the sum, over the villain's
    response table, of probability times payoff
    (PokerDecisionModel.calculate_ev). */
module EvCalculator {
  import opened PokerTypes
  import opened OpponentModel
  import Equity

  /** Extra cost of being called before the river (negative implied odds). */
  function CallPenalty(t: PlayerType): (p: real)
    ensures p >= 1.0
    ensures p > 1.0 <==> t == LooseAggressive
  {
    if t == LooseAggressive then 1.3 else 1.0
  }

  /** Extra cost of being raised. */
  function RaisePenalty(t: PlayerType): (p: real)
    ensures p >= CallPenalty(t)
    ensures p > 1.0 <==> t == LooseAggressive
  {
    if t == LooseAggressive then 1.5 else 1.0
  }

  /** A CALL on the river is priced with the equity estimate. */
  predicate TermDefined(resp: Action, spot: Spot)
  {
    resp == Call && spot.stage == River ==> Equity.EquityDefined(spot.cards, River)
  }

  /** The hero's showdown value when called on the river with equity e. */
  function RiverCallPayoff(e: real, pot: real, bet: real): (v: real)
    ensures e == 0.0 ==> v == -bet
    ensures e == 1.0 ==> v == pot + 2.0 * bet
    ensures 0.0 <= e <= 1.0 && 0.0 <= pot && 0.0 <= bet ==> -bet <= v <= pot + 2.0 * bet
  {
    var v := e * (pot + 2.0 * bet) - (1.0 - e) * bet;
    assert v == e * pot + 3.0 * (e * bet) - bet;
    assert 0.0 <= e <= 1.0 && 0.0 <= pot && 0.0 <= bet ==> e * pot <= pot && e * bet <= bet;
    v
  }

  /** What one (response, probability) pair adds to the EV. A villain BET is
      worth 0 (the hero is assumed to fold to it); a label no branch of the
      source matches (CHECK) adds nothing. */
  function Term(resp: Action, prob: real, spot: Spot, bet: real): (t: real)
    requires TermDefined(resp, spot)
    ensures resp != Fold && resp != Call && resp != Raise ==> t == 0.0
    ensures 0.0 <= prob && 0.0 <= spot.pot && resp == Fold ==> t >= 0.0
    ensures 0.0 <= prob && 0.0 <= bet && (resp == Raise || (resp == Call && spot.stage != River)) ==> t <= 0.0
  {
    match resp
    case Fold => prob * spot.pot
    case Call =>
      if spot.stage == River then prob * RiverCallPayoff(Equity.Estimate(spot.cards, River), spot.pot, bet)
      else prob * (-bet * CallPenalty(spot.opponent))
    case Raise => prob * (-bet * RaisePenalty(spot.opponent))
    case Bet => prob * 0.0
    case _ => 0.0
  }

  function SumTerms(d: Distribution, spot: Spot, bet: real): real
    requires forall k :: 0 <= k < |d| ==> TermDefined(d[k].0, spot)
  {
    if d == [] then 0.0 else Term(d[0].0, d[0].1, spot, bet) + SumTerms(d[1..], spot, bet)
  }

  /** SumTerms peels the entry at any index off its suffix. */
  lemma SumTermsFrom(d: Distribution, i: nat, spot: Spot, bet: real)
    requires i < |d|
    requires forall k :: 0 <= k < |d| ==> TermDefined(d[k].0, spot)
    ensures SumTerms(d[i..], spot, bet) == Term(d[i].0, d[i].1, spot, bet) + SumTerms(d[i + 1..], spot, bet)
  {
    assert d[i..][0] == d[i] && d[i..][1..] == d[i + 1..];
  }

  /** Where the source can compute the EV without raising. */
  predicate EvDefined(spot: Spot, action: Action)
  {
    IsAggressive(action) && spot.stage == River ==> Equity.EquityDefined(spot.cards, River)
  }

  /** Every label of the table the action draws can be priced. */
  lemma ResponseTermsDefined(spot: Spot, action: Action)
    requires EvDefined(spot, action)
    ensures forall k :: 0 <= k < |Response(spot.opponent, action)| ==>
              TermDefined(Response(spot.opponent, action)[k].0, spot)
  {
    var d := Response(spot.opponent, action);
    forall k | 0 <= k < |d| ensures TermDefined(d[k].0, spot) {
      assert Labels(d)[k] == d[k].0;
    }
  }

  function Ev(spot: Spot, action: Action, bet: real): (ev: real)
    requires EvDefined(spot, action)
    ensures action == Fold ==> ev == 0.0
    ensures action == AllIn ==> ev == spot.pot
  {
    if action == Fold then 0.0
    else
      var d := Response(spot.opponent, action);
      ResponseTermsDefined(spot, action);
      assert action == AllIn ==> d[1..] == [] && SumTerms(d[1..], spot, bet) == 0.0;
      SumTerms(d, spot, bet)
  }

  /** SumTerms over a table of two or three labels, written out. */
  lemma SumTermsUnrolled(d: Distribution, spot: Spot, bet: real)
    requires 2 <= |d| <= 3
    requires forall k :: 0 <= k < |d| ==> TermDefined(d[k].0, spot)
    ensures |d| == 2 ==>
      SumTerms(d, spot, bet) == Term(d[0].0, d[0].1, spot, bet) + Term(d[1].0, d[1].1, spot, bet)
    ensures |d| == 3 ==>
      SumTerms(d, spot, bet)
      == Term(d[0].0, d[0].1, spot, bet) + Term(d[1].0, d[1].1, spot, bet) + Term(d[2].0, d[2].1, spot, bet)
  {
    var d1 := d[1..];
    var d2 := d1[1..];
    assert d1[0] == d[1];
    assert SumTerms(d1, spot, bet) == Term(d1[0].0, d1[0].1, spot, bet) + SumTerms(d2, spot, bet);
    if |d| == 3 {
      var d3 := d2[1..];
      assert d2[0] == d[2] && d3 == [];
      assert SumTerms(d2, spot, bet) == Term(d2[0].0, d2[0].1, spot, bet) + SumTerms(d3, spot, bet);
    } else {
      assert d2 == [];
    }
  }

  /** CHECK and CALL draw the {CHECK, BET} table: CHECK matches no branch and
      BET adds 0, so their EV is 0 whatever the size. */
  lemma PassiveEvIsZero(spot: Spot, action: Action, bet: real)
    requires action == Check || action == Call
    ensures Ev(spot, action, bet) == 0.0
  {
    var d := Response(spot.opponent, action);
    assert Labels(d) == [Check, Bet];
    ResponseTermsDefined(spot, action);
    SumTermsUnrolled(d, spot, bet);
  }

  /** Off the river, BET and RAISE are worth
      P(FOLD)·pot − P(CALL)·bet·(call penalty) − P(RAISE)·bet·(raise penalty). */
  lemma AggressiveEvOffRiver(spot: Spot, action: Action, bet: real)
    requires IsAggressive(action) && spot.stage != River
    ensures var d := Response(spot.opponent, action);
      Ev(spot, action, bet)
        == Prob(d, Fold) * spot.pot
           - Prob(d, Call) * bet * CallPenalty(spot.opponent)
           - Prob(d, Raise) * bet * RaisePenalty(spot.opponent)
  {
    var d := Response(spot.opponent, action);
    assert Labels(d) == [Fold, Call, Raise];
    ResponseTermsDefined(spot, action);
    SumTermsUnrolled(d, spot, bet);
    AggressiveProbs(d);
  }

  /** On the river the CALL term is the showdown value against the equity e
      instead: e·(pot + 2·bet) − (1 − e)·bet. */
  lemma AggressiveEvOnRiver(spot: Spot, action: Action, bet: real)
    requires IsAggressive(action) && spot.stage == River
    requires Equity.EquityDefined(spot.cards, River)
    ensures var d := Response(spot.opponent, action);
      var e := Equity.Estimate(spot.cards, River);
      Ev(spot, action, bet)
        == Prob(d, Fold) * spot.pot
           + Prob(d, Call) * RiverCallPayoff(e, spot.pot, bet)
           - Prob(d, Raise) * bet * RaisePenalty(spot.opponent)
  {
    var d := Response(spot.opponent, action);
    assert Labels(d) == [Fold, Call, Raise];
    ResponseTermsDefined(spot, action);
    SumTermsUnrolled(d, spot, bet);
    AggressiveProbs(d);
  }

  /** In a {FOLD, CALL, RAISE} table, Prob reads the three weights in order. */
  lemma AggressiveProbs(d: Distribution)
    requires Labels(d) == [Fold, Call, Raise]
    ensures Prob(d, Fold) == d[0].1 && Prob(d, Call) == d[1].1 && Prob(d, Raise) == d[2].1
  {
    var ks := Labels(d);
    assert ks[0] == d[0].0 && ks[1] == d[1].0 && ks[2] == d[2].0;
    ProbOfKey(d, 0);
    ProbOfKey(d, 1);
    ProbOfKey(d, 2);
  }

  /** Scaredy cat, preflop, a raise of 3.0 into a pot of 1.5:
      0.8·1.5 − 0.19·3.0 − 0.01·3.0 = 0.6. */
  lemma ScaredyCatPreflopRaise(cards: seq<string>)
    ensures Ev(Spot(ScaredyCat, Preflop, 1.5, cards), Raise, 3.0) == 0.6
  {
    var d := Response(ScaredyCat, Raise);
    AggressiveEvOffRiver(Spot(ScaredyCat, Preflop, 1.5, cards), Raise, 3.0);
    AggressiveProbs(d);
  }

  /** The same flop bet of 2.0 into a pot of 4.0 against two archetypes:
      against the loose-aggressive villain the call costs 1.3 times the bet
      and the raise 1.5 times, 0.10·4 − 0.30·2·1.3 − 0.60·2·1.5 = −2.18;
      against the tight-passive villain both cost the bet itself,
      0.65·4 − 0.30·2 − 0.05·2 = 1.9. */
  lemma FlopBetPenalties(cards: seq<string>)
    ensures Ev(Spot(LooseAggressive, Flop, 4.0, cards), Bet, 2.0) == 0.4 - 0.78 - 1.8
    ensures Ev(Spot(TightPassive, Flop, 4.0, cards), Bet, 2.0) == 2.6 - 0.6 - 0.1
  {
    AggressiveEvOffRiver(Spot(LooseAggressive, Flop, 4.0, cards), Bet, 2.0);
    AggressiveProbs(Response(LooseAggressive, Bet));
    AggressiveEvOffRiver(Spot(TightPassive, Flop, 4.0, cards), Bet, 2.0);
    AggressiveProbs(Response(TightPassive, Bet));
  }
}

=== FILE: holdem.dfy ===
/** The hand state and the hand loop (class PokerDecisionModel): the
    constructor and start_hand reset the state, execute_action moves the
    chips and appends to the history, update_stage runs the street machine
    and simulate_hand plays the hand out and awards the pot. */
module Holdem {
  import opened PokerTypes
  import OpponentModel
  import Equity
  import EvCalculator
  import ActionPolicy
  import StageMachine
  import Chips

  /** What simulate_hand returns: (winner, net_profit, total_decision_ev,
      decision_count, avg_ev). */
  datatype HandResult = HandResult(winner: Actor, netProfit: real, totalEv: real,
                                   decisionCount: nat, avgEv: real)

  /** The random outcomes one round of the hand loop consumes: the 70%
      re-raise draw, and the label random.choices would pick from each kind
      of response table (facing a BET/RAISE, or facing anything else). */
  datatype Draw = Draw(coin: bool, vsAggression: Action, vsPassivity: Action)

  /** A draw random.choices can produce: a key of each kind of table. */
  predicate ValidDraw(d: Draw)
  {
    (d.vsAggression == Fold || d.vsAggression == Call || d.vsAggression == Raise)
    && (d.vsPassivity == Check || d.vsPassivity == Bet)
  }

  /** The villain's response drawn for the hero's action. */
  function Pick(d: Draw, a: Action): (r: Action)
    ensures ValidDraw(d) ==>
      forall t :: r in OpponentModel.Labels(OpponentModel.Response(t, a))
  {
    if a == AllIn then Fold else if IsAggressive(a) then d.vsAggression else d.vsPassivity
  }

  /** Average EV per decision, 0 when no decision was taken. */
  function AverageEv(total: real, count: nat): (avg: real)
    ensures count > 0 ==> avg * (count as real) == total
    ensures count == 0 ==> avg == 0.0
  {
    if count > 0 then total / (count as real) else 0.0
  }

  /** The chips a decision record shows its actor putting in: a hero record
      keeps the requested size and the stack before, so its amount is the
      clamped contribution; a villain record keeps the amount paid. */
  function Paid(r: DecisionRecord): real
  {
    if r.player == Hero then Chips.HeroContribution(r.action, r.size, r.stack) else r.size
  }

  /** What one side has put into the pot over a run of records. */
  function PaidBy(rs: seq<DecisionRecord>, who: Actor): real
  {
    if rs == [] then 0.0
    else PaidBy(rs[..|rs| - 1], who) + (if rs[|rs| - 1].player == who then Paid(rs[|rs| - 1]) else 0.0)
  }

  /** A round's hero record adds its own contribution to the hero's total and
      the villain record's amount to the villain's. */
  lemma PaidByRound(rs: seq<DecisionRecord>, h: DecisionRecord, v: DecisionRecord)
    requires h.player == Hero && v.player == Villain
    ensures PaidBy(rs + [h, v], Hero) == PaidBy(rs, Hero) + Chips.HeroContribution(h.action, h.size, h.stack)
    ensures PaidBy(rs + [h, v], Villain) == PaidBy(rs, Villain) + v.size
  {
    var withH := rs + [h];
    assert (rs + [h, v])[..|rs| + 1] == withH;
    assert withH[..|rs|] == rs;
  }

  /** The logged EV of a round is the EV of the hero's recorded action at the
      recorded street and pot. */
  predicate LoggedEv(r: DecisionRecord, ev: real, t: PlayerType, cards: seq<string>)
  {
    r.player == Hero
    && EvCalculator.EvDefined(Spot(t, r.stage, r.pot, cards), r.action)
    && ev == EvCalculator.Ev(Spot(t, r.stage, r.pot, cards), r.action, r.size)
  }

  /** Two records per round, and each logged EV belongs to its round's hero
      record. */
  predicate EvsMatchRecords(evs: seq<real>, recs: seq<DecisionRecord>, t: PlayerType, cards: seq<string>)
  {
    |recs| == 2 * |evs| && forall k :: 0 <= k < |evs| ==> LoggedEv(recs[2 * k], evs[k], t, cards)
  }

  lemma EvsMatchRound(evs: seq<real>, recs: seq<DecisionRecord>, t: PlayerType, cards: seq<string>,
                      ev: real, h: DecisionRecord, v: DecisionRecord)
    requires EvsMatchRecords(evs, recs, t, cards) && LoggedEv(h, ev, t, cards)
    ensures EvsMatchRecords(evs + [ev], recs + [h, v], t, cards)
  {
    var evs', recs' := evs + [ev], recs + [h, v];
    forall k | 0 <= k < |evs'|
      ensures LoggedEv(recs'[2 * k], evs'[k], t, cards)
    {
      if k < |evs| {
        assert recs'[2 * k] == recs[2 * k] && evs'[k] == evs[k];
      }
    }
  }

  /** The street a hand starts on: the last of flop, turn, river given. */
  function StartingStage(flop: seq<string>, turn: string, river: string): (s: Stage)
    ensures s != Showdown && s != Terminal
    ensures s == River <==> |river| > 0
    ensures s == Turn <==> |river| == 0 && |turn| > 0
    ensures s == Preflop <==> |flop| == 0 && |turn| == 0 && |river| == 0
  {
    if |river| > 0 then River
    else if |turn| > 0 then Turn
    else if |flop| > 0 then Flop
    else Preflop
  }

  /** The fixed starting pot of each street. */
  function StartingPot(s: Stage): (p: real)
    ensures s == Preflop ==> p == Chips.Blinds("SB").0 + Chips.Blinds("SB").1
    ensures p >= 1.5
  {
    match s
    case Flop => 4.0
    case Turn => 8.0
    case River => 16.0
    case _ => 1.5
  }

  /** Past the flop each street starts with twice the previous street's pot. */
  lemma StartingPotDoubles(s: Stage)
    requires s == Flop || s == Turn
    ensures StartingPot(StageMachine.Advance(s)) == 2.0 * StartingPot(s)
  {
  }

  /** The part of the model's state that a pass of the hand loop changes. */
  datatype HandState = HandState(stage: Stage, pot: real, heroStack: real, villainStack: real,
                                 history: seq<Entry>, decisionTree: seq<DecisionRecord>,
                                 decisionEvs: seq<real>, lastBetAmount: real)

  /** All chips on the table in a hand state. */
  function OnTable(s: HandState): real
  {
    s.pot + s.heroStack + s.villainStack
  }

  /** One pass of the hand loop against the archetype t with hole cards
      `cards`, before its EV is logged: the policy decides, the villain
      answers with the drawn label, both records and history entries are
      appended, the clamped chips move into the pot and the street machine
      runs; a villain FOLD ends the hand at TERMINAL and an empty stack at
      SHOWDOWN. What a round guarantees is stated by RoundFacts. */
  function Round(t: PlayerType, cards: seq<string>, s: HandState, draw: Draw): HandState
    requires WellFormedHand(cards) && s.stage != Terminal
  {
    var choice := ActionPolicy.Choose(s.history, s.heroStack, Spot(t, s.stage, s.pot, cards), draw.coin);
    var resp := Pick(draw, choice.0);
    var heroPaid := Chips.HeroContribution(choice.0, choice.1, s.heroStack);
    var villainPaid := Chips.VillainContribution(resp, choice.1, s.pot + heroPaid, s.villainStack);
    var heroStack, villainStack := s.heroStack - heroPaid, s.villainStack - villainPaid;
    var history := s.history + [Entry(Hero, choice.0, choice.1), Entry(Villain, resp, villainPaid)];
    var stage :=
      if resp == Fold then Terminal
      else if heroStack == 0.0 || villainStack == 0.0 then Showdown
      else StageMachine.NextStage(history, s.stage, heroStack, villainStack);
    HandState(stage, s.pot + heroPaid + villainPaid, heroStack, villainStack, history,
              s.decisionTree + [DecisionRecord(Hero, s.stage, choice.0, choice.1, s.pot, s.heroStack),
                                DecisionRecord(Villain, s.stage, resp, villainPaid, s.pot + heroPaid, s.villainStack)],
              s.decisionEvs,
              if ActionPolicy.FacingBet(s.history) then s.history[|s.history| - 1].amount else s.lastBetAmount)
  }

  /** The two new records of a round account for every chip that moved,
      the two new history entries repeat them, the stage never moves back,
      and the hand ends at TERMINAL exactly when the villain folds. */
  lemma RoundFacts(t: PlayerType, cards: seq<string>, s: HandState, draw: Draw)
    requires WellFormedHand(cards) && s.stage != Terminal
    ensures var r := Round(t, cards, s, draw);
      && |r.history| == |s.history| + 2 && s.history <= r.history
      && |r.decisionTree| == |s.decisionTree| + 2 && s.decisionTree <= r.decisionTree
      && r.decisionEvs == s.decisionEvs
      && (r.stage == Terminal <==> r.history[|r.history| - 1].action == Fold)
      && StageIndex(s.stage) <= StageIndex(r.stage)
    ensures var r := Round(t, cards, s, draw);
      var h, v := r.decisionTree[|s.decisionTree|], r.decisionTree[|s.decisionTree| + 1];
      && h.player == Hero && h.stage == s.stage && h.pot == s.pot && h.stack == s.heroStack
      && v.player == Villain && v.stage == s.stage
      && r.history[|s.history|] == Entry(Hero, h.action, h.size)
      && r.history[|s.history| + 1] == Entry(Villain, v.action, v.size)
      && r.heroStack == s.heroStack - Paid(h)
      && r.villainStack == s.villainStack - Paid(v)
      && r.pot == s.pot + Paid(h) + Paid(v)
  {
    var choice := ActionPolicy.Choose(s.history, s.heroStack, Spot(t, s.stage, s.pot, cards), draw.coin);
    var resp := Pick(draw, choice.0);
    var heroPaid := Chips.HeroContribution(choice.0, choice.1, s.heroStack);
    var villainPaid := Chips.VillainContribution(resp, choice.1, s.pot + heroPaid, s.villainStack);
    var history := s.history + [Entry(Hero, choice.0, choice.1), Entry(Villain, resp, villainPaid)];
    StageMachine.NeverMovesBack(history, s.stage, s.heroStack - heroPaid, s.villainStack - villainPaid);
  }

  /** The EV the hero's decision in a round is logged with. */
  function RoundEv(t: PlayerType, cards: seq<string>, s: HandState, draw: Draw): real
    requires WellFormedHand(cards) && s.stage != Terminal
  {
    var spot := Spot(t, s.stage, s.pot, cards);
    var choice := ActionPolicy.Choose(s.history, s.heroStack, spot, draw.coin);
    EvCalculator.Ev(spot, choice.0, choice.1)
  }

  /** A state whose fields are what the three calls of a round leave behind
      (the policy's choice, the drawn response, the clamped contributions,
      the records and entries, the street machine) is the round's state. */
  lemma RoundIs(t: PlayerType, cards: seq<string>, s: HandState, draw: Draw,
                action: Action, size: real, resp: Action, r: HandState)
    requires WellFormedHand(cards) && s.stage != Terminal
    requires (action, size) == ActionPolicy.Choose(s.history, s.heroStack, Spot(t, s.stage, s.pot, cards), draw.coin)
    requires resp == Pick(draw, action)
    requires var heroPaid := Chips.HeroContribution(action, size, s.heroStack);
      var villainPaid := Chips.VillainContribution(resp, size, s.pot + heroPaid, s.villainStack);
      && r.heroStack == s.heroStack - heroPaid
      && r.villainStack == s.villainStack - villainPaid
      && r.pot == s.pot + heroPaid + villainPaid
      && r.history == s.history + [Entry(Hero, action, size), Entry(Villain, resp, villainPaid)]
      && r.decisionTree == s.decisionTree
           + [DecisionRecord(Hero, s.stage, action, size, s.pot, s.heroStack),
              DecisionRecord(Villain, s.stage, resp, villainPaid, s.pot + heroPaid, s.villainStack)]
    requires r.decisionEvs == s.decisionEvs
    requires r.lastBetAmount == if ActionPolicy.FacingBet(s.history) then s.history[|s.history| - 1].amount else s.lastBetAmount
    requires resp == Fold ==> r.stage == Terminal
    requires resp != Fold && (r.heroStack == 0.0 || r.villainStack == 0.0) ==> r.stage == Showdown
    requires resp != Fold && r.heroStack != 0.0 && r.villainStack != 0.0 ==>
      r.stage == StageMachine.NextStage(r.history, s.stage, r.heroStack, r.villainStack)
    ensures r == Round(t, cards, s, draw)
  {
  }

  /** One pass of the hand loop: the round, with its EV appended to the log.
      The logged EV is the EV of the round's own hero record. */
  function Step(t: PlayerType, cards: seq<string>, s: HandState, draw: Draw): (r: HandState)
    requires WellFormedHand(cards) && s.stage != Terminal
    ensures |r.history| == |s.history| + 2 && s.history <= r.history
    ensures |r.decisionTree| == |s.decisionTree| + 2 && s.decisionTree <= r.decisionTree
    ensures |r.decisionEvs| == |s.decisionEvs| + 1 && s.decisionEvs <= r.decisionEvs
    ensures OnTable(r) == OnTable(s)
    ensures StageIndex(s.stage) <= StageIndex(r.stage)
  {
    var r := Round(t, cards, s, draw);
    RoundFacts(t, cards, s, draw);
    r.(decisionEvs := r.decisionEvs + [RoundEv(t, cards, s, draw)])
  }

  /** A round logs the EV of its own hero record. */
  lemma StepLogsItsEv(t: PlayerType, cards: seq<string>, s: HandState, draw: Draw)
    requires WellFormedHand(cards) && s.stage != Terminal
    ensures var r := Step(t, cards, s, draw);
      LoggedEv(r.decisionTree[|s.decisionTree|], r.decisionEvs[|s.decisionEvs|], t, cards)
  {
    var r := Step(t, cards, s, draw);
    RoundFacts(t, cards, s, draw);
    assert r == Round(t, cards, s, draw).(decisionEvs := r.decisionEvs);
  }

  /** A round ends with the villain's entry, and it ends the hand at
      TERMINAL exactly when that entry is a FOLD. */
  lemma StepEndsWithVillain(t: PlayerType, cards: seq<string>, s: HandState, draw: Draw)
    requires WellFormedHand(cards) && s.stage != Terminal
    ensures var r := Step(t, cards, s, draw);
      && r.history[|r.history| - 1].actor == Villain
      && (r.stage == Terminal <==> r.history[|r.history| - 1].action == Fold)
  {
    var r := Step(t, cards, s, draw);
    RoundFacts(t, cards, s, draw);
    assert r == Round(t, cards, s, draw).(decisionEvs := r.decisionEvs);
  }

  /** The hand loop: one Step per draw while the hand is neither folded nor
      at showdown. What it guarantees is stated by PlayGrows and
      PlayConservesChips. */
  function Play(t: PlayerType, cards: seq<string>, s: HandState, draws: seq<Draw>): HandState
    requires WellFormedHand(cards)
    decreases |draws|, 1
  {
    if draws == [] || s.stage == Terminal || s.stage == Showdown then s
    else PlayOn(t, cards, s, draws)
  }

  /** The hand loop once it is known to take another round: the round on
      the first draw, then the loop on the rest. */
  function PlayOn(t: PlayerType, cards: seq<string>, s: HandState, draws: seq<Draw>): HandState
    requires WellFormedHand(cards) && draws != [] && s.stage != Terminal && s.stage != Showdown
    decreases |draws|, 0
  {
    Play(t, cards, Step(t, cards, s, draws[0]), draws[1..])
  }

  /** The history and both logs of the hand loop only grow, two entries
      and one EV per round; the stage never moves back; and the loop stops
      early only at TERMINAL or SHOWDOWN. */
  lemma {:induction false} PlayGrows(t: PlayerType, cards: seq<string>, s: HandState, draws: seq<Draw>)
    requires WellFormedHand(cards)
    ensures var r := Play(t, cards, s, draws);
      && |s.decisionEvs| <= |r.decisionEvs| <= |s.decisionEvs| + |draws|
      && s.decisionEvs <= r.decisionEvs
      && |r.history| == |s.history| + 2 * (|r.decisionEvs| - |s.decisionEvs|) && s.history <= r.history
      && |r.decisionTree| == |s.decisionTree| + 2 * (|r.decisionEvs| - |s.decisionEvs|)
      && s.decisionTree <= r.decisionTree
      && (r.stage != Terminal && r.stage != Showdown ==> |r.decisionEvs| == |s.decisionEvs| + |draws|)
      && StageIndex(s.stage) <= StageIndex(r.stage)
    decreases |draws|
  {
    if draws != [] && s.stage != Terminal && s.stage != Showdown {
      var n := Step(t, cards, s, draws[0]);
      assert Play(t, cards, s, draws) == Play(t, cards, n, draws[1..]);
      PlayGrows(t, cards, n, draws[1..]);
    }
  }

  /** The hand loop only moves chips between the stacks and the pot. */
  lemma {:induction false} PlayConservesChips(t: PlayerType, cards: seq<string>, s: HandState, draws: seq<Draw>)
    requires WellFormedHand(cards)
    ensures OnTable(Play(t, cards, s, draws)) == OnTable(s)
    decreases |draws|
  {
    if draws != [] && s.stage != Terminal && s.stage != Showdown {
      var n := Step(t, cards, s, draws[0]);
      assert Play(t, cards, s, draws) == Play(t, cards, n, draws[1..]);
      PlayConservesChips(t, cards, n, draws[1..]);
    }
  }

  /** One unfolding of Play at position i of the draws. */
  lemma PlayUnfold(t: PlayerType, cards: seq<string>, s: HandState, draws: seq<Draw>, i: nat)
    requires WellFormedHand(cards) && i < |draws| && s.stage != Terminal && s.stage != Showdown
    ensures Play(t, cards, s, draws[i..]) == Play(t, cards, Step(t, cards, s, draws[i]), draws[i + 1..])
  {
    assert draws[i..][0] == draws[i] && draws[i..][1..] == draws[i + 1..];
  }

  /** Replaying one more draw keeps the loop on the path Play takes. */
  lemma PlayAdvance(t: PlayerType, cards: seq<string>, s0: HandState, s: HandState, n: HandState,
                    draws: seq<Draw>, i: nat)
    requires WellFormedHand(cards) && i < |draws| && s.stage != Terminal && s.stage != Showdown
    requires Play(t, cards, s, draws[i..]) == Play(t, cards, s0, draws)
    requires n == Step(t, cards, s, draws[i])
    ensures Play(t, cards, n, draws[i + 1..]) == Play(t, cards, s0, draws)
  {
    PlayUnfold(t, cards, s, draws, i);
  }

  /** The hero never folds, so a hand the loop brings to TERMINAL ends with
      a villain FOLD as the last history entry. */
  lemma {:induction false} FoldEndsTheHand(t: PlayerType, cards: seq<string>, s: HandState, draws: seq<Draw>)
    requires WellFormedHand(cards) && s.stage != Terminal
    ensures var r := Play(t, cards, s, draws);
      r.stage == Terminal ==>
        |r.history| > 0 && r.history[|r.history| - 1].actor == Villain && r.history[|r.history| - 1].action == Fold
    decreases |draws|, 1
  {
    if draws == [] || s.stage == Showdown {
      assert Play(t, cards, s, draws) == s;
    } else {
      var n := Step(t, cards, s, draws[0]);
      assert Play(t, cards, s, draws) == PlayOn(t, cards, s, draws) == Play(t, cards, n, draws[1..]);
      StepEndsWithVillain(t, cards, s, draws[0]);
      if n.stage == Terminal {
        assert Play(t, cards, n, draws[1..]) == n;
      } else {
        FoldEndsTheHand(t, cards, n, draws[1..]);
      }
    }
  }

  /** No amount on the table or in the history is negative. */
  predicate ValidState(s: HandState)
  {
    s.pot >= 0.0 && s.heroStack >= 0.0 && s.villainStack >= 0.0
    && ActionPolicy.AmountsNonNegative(s.history)
  }

  /** A round keeps every amount non-negative: each contribution is clamped
      to its owner's stack. */
  lemma RoundValid(t: PlayerType, cards: seq<string>, s: HandState, draw: Draw)
    requires WellFormedHand(cards) && s.stage != Terminal && ValidState(s)
    ensures ValidState(Round(t, cards, s, draw))
  {
  }

  lemma {:induction false} PlayValid(t: PlayerType, cards: seq<string>, s: HandState, draws: seq<Draw>)
    requires WellFormedHand(cards) && ValidState(s)
    ensures ValidState(Play(t, cards, s, draws))
    decreases |draws|
  {
    if draws != [] && s.stage != Terminal && s.stage != Showdown {
      var n := Step(t, cards, s, draws[0]);
      RoundValid(t, cards, s, draws[0]);
      assert n == Round(t, cards, s, draws[0]).(decisionEvs := n.decisionEvs);
      PlayValid(t, cards, n, draws[1..]);
    }
  }

  /** Measured from the state s0: every EV logged since is the EV of its
      round's hero record, each stack is its start minus what its records
      show it paid, and the pot is its start plus what both paid. */
  predicate Accounted(t: PlayerType, cards: seq<string>, s0: HandState, r: HandState)
  {
    |s0.decisionTree| <= |r.decisionTree| && |s0.decisionEvs| <= |r.decisionEvs|
    && EvsMatchRecords(r.decisionEvs[|s0.decisionEvs|..], r.decisionTree[|s0.decisionTree|..], t, cards)
    && r.heroStack == s0.heroStack - PaidBy(r.decisionTree[|s0.decisionTree|..], Hero)
    && r.villainStack == s0.villainStack - PaidBy(r.decisionTree[|s0.decisionTree|..], Villain)
    && r.pot == s0.pot + PaidBy(r.decisionTree[|s0.decisionTree|..], Hero)
                      + PaidBy(r.decisionTree[|s0.decisionTree|..], Villain)
  }

  /** A round keeps the accounts. */
  lemma StepAccounted(t: PlayerType, cards: seq<string>, s0: HandState, s: HandState, draw: Draw)
    requires WellFormedHand(cards) && s.stage != Terminal && Accounted(t, cards, s0, s)
    ensures Accounted(t, cards, s0, Step(t, cards, s, draw))
  {
    var r := Step(t, cards, s, draw);
    RoundFacts(t, cards, s, draw);
    assert r == Round(t, cards, s, draw).(decisionEvs := r.decisionEvs);
    StepLogsItsEv(t, cards, s, draw);
    var recs, evs := s.decisionTree[|s0.decisionTree|..], s.decisionEvs[|s0.decisionEvs|..];
    var h, v := r.decisionTree[|s.decisionTree|], r.decisionTree[|s.decisionTree| + 1];
    var ev := r.decisionEvs[|s.decisionEvs|];
    assert r.decisionTree == s.decisionTree + [h, v];
    assert r.decisionTree[|s0.decisionTree|..] == recs + [h, v];
    assert r.decisionEvs == s.decisionEvs + [ev];
    assert r.decisionEvs[|s0.decisionEvs|..] == evs + [ev];
    PaidByRound(recs, h, v);
    EvsMatchRound(evs, recs, t, cards, ev, h, v);
  }

  lemma {:induction false} PlayAccounted(t: PlayerType, cards: seq<string>, s0: HandState, s: HandState,
                                         draws: seq<Draw>)
    requires WellFormedHand(cards) && Accounted(t, cards, s0, s)
    ensures Accounted(t, cards, s0, Play(t, cards, s, draws))
    decreases |draws|
  {
    if draws != [] && s.stage != Terminal && s.stage != Showdown {
      StepAccounted(t, cards, s0, s, draws[0]);
      PlayAccounted(t, cards, s0, Step(t, cards, s, draws[0]), draws[1..]);
    }
  }

  /** Over a whole hand loop, every logged EV is the EV of its round's hero
      decision, and the chips each side has put in are the ones its records
      show. */
  lemma HandAccounted(t: PlayerType, cards: seq<string>, s: HandState, draws: seq<Draw>)
    requires WellFormedHand(cards)
    ensures Accounted(t, cards, s, Play(t, cards, s, draws))
  {
    assert s.decisionTree[|s.decisionTree|..] == [] && s.decisionEvs[|s.decisionEvs|..] == [];
    PlayAccounted(t, cards, s, s, draws);
  }

  class PokerDecisionModel {
    var stage: Stage
    var pot: real
    var heroStack: real
    var villainStack: real
    var position: string
    var holeCards: seq<string>
    var communityCards: seq<string>
    var history: seq<Entry>
    var actionCount: int
    var initialStack: real
    var lastBetAmount: real
    var decisionTree: seq<DecisionRecord>
    var decisionEvs: seq<real>
    const opponentType: PlayerType

    /** The fields the EV calculator and the policy read. */
    function CurrentSpot(): Spot
      reads this
    {
      Spot(opponentType, stage, pot, holeCards)
    }

    /** The fields the hand loop changes, as a value. */
    function Snapshot(): HandState
      reads this
    {
      HandState(stage, pot, heroStack, villainStack, history, decisionTree, decisionEvs, lastBetAmount)
    }

    /** All chips on the table. */
    ghost function TotalChips(): real
      reads this
    {
      pot + heroStack + villainStack
    }

    /** No amount on the table or in the history is negative. */
    ghost predicate ChipsValid()
      reads this
    {
      pot >= 0.0 && heroStack >= 0.0 && villainStack >= 0.0
      && ActionPolicy.AmountsNonNegative(history)
    }

    constructor (opponentType: PlayerType, heroPosition: string, heroStack: real, villainStack: real)
      ensures this.opponentType == opponentType && position == heroPosition
      ensures stage == Preflop && pot == 1.5
      ensures this.heroStack == heroStack - Chips.Blinds(heroPosition).0
      ensures this.villainStack == villainStack - Chips.Blinds(heroPosition).1
      ensures initialStack == heroStack
      ensures holeCards == [] && communityCards == [] && history == []
      ensures decisionTree == [] && decisionEvs == []
      ensures actionCount == 0 && lastBetAmount == 0.0
      ensures heroStack >= 1.0 && villainStack >= 1.0 ==> ChipsValid()
    {
      stage := Preflop;
      pot := 1.5;
      this.heroStack := heroStack;
      this.villainStack := villainStack;
      position := heroPosition;
      holeCards := [];
      communityCards := [];
      history := [];
      actionCount := 0;
      initialStack := heroStack;
      lastBetAmount := 0.0;
      decisionTree := [];
      decisionEvs := [];
      this.opponentType := opponentType;
      new;
      if heroPosition == "SB" {
        this.heroStack := this.heroStack - 0.5;
        this.villainStack := this.villainStack - 1.0;
      } else if heroPosition == "BB" {
        this.heroStack := this.heroStack - 1.0;
        this.villainStack := this.villainStack - 0.5;
      }
    }

    /** Deal a new hand: reset the logs, snapshot the stack, and start on the
        last street whose cards are given (empty means not given), with that
        street's fixed pot. */
    method StartHand(heroCards: seq<string>, flop: seq<string>, turn: string, river: string)
      modifies this`holeCards, this`communityCards, this`history, this`stage, this`actionCount
      modifies this`initialStack, this`lastBetAmount, this`decisionTree, this`decisionEvs, this`pot
      ensures holeCards == heroCards && history == [] && decisionTree == [] && decisionEvs == []
      ensures actionCount == 0 && lastBetAmount == 0.0 && initialStack == heroStack
      ensures communityCards
        == flop + (if |turn| > 0 then [turn] else []) + (if |river| > 0 then [river] else [])
      ensures stage == StartingStage(flop, turn, river) && pot == StartingPot(stage)
      ensures StageIndex(stage) <= StageIndex(River)
      ensures heroStack >= 0.0 && villainStack >= 0.0 ==> ChipsValid()
    {
      var community := flop;
      var street := Preflop;
      var startPot := 1.5;
      if |flop| > 0 {
        street, startPot := Flop, 4.0;
      }
      if |turn| > 0 {
        community := community + [turn];
        street, startPot := Turn, 8.0;
      }
      if |river| > 0 {
        community := community + [river];
        street, startPot := River, 16.0;
      }
      assert street == StartingStage(flop, turn, river) && startPot == StartingPot(street);
      assert community == flop + (if |turn| > 0 then [turn] else []) + (if |river| > 0 then [river] else []);
      holeCards, communityCards, history, stage := heroCards, community, [], street;
      actionCount, initialStack, lastBetAmount := 0, heroStack, 0.0;
      decisionTree, decisionEvs, pot := [], [], startPot;
    }

    /** The equity of the hole cards on the current street, building the
        list of rank values card by card. */
    method EstimateEquity() returns (equity: real)
      requires Equity.EquityDefined(holeCards, stage)
      ensures equity == Equity.Estimate(holeCards, stage)
      ensures 0.05 <= equity <= 0.95
    {
      if '7' in holeCards[0] && '2' in holeCards[1] {
        return 0.05;
      }
      var values: seq<real> := [];
      var k := 0;
      while k < |holeCards|
        invariant 0 <= k <= |holeCards|
        invariant values == Equity.RankValues(holeCards[..k])
      {
        Equity.RankValuesExtend(holeCards, k);
        values := values + [Equity.RankValue(holeCards[k])];
        k := k + 1;
      }
      assert holeCards[..k] == holeCards;
      var strength := SumReals(values) / (|values| as real);
      assert strength == Equity.Strength(holeCards);
      var suited := holeCards[0][1] == holeCards[1][1];
      var rankDiff := if values[0] >= values[1] then values[0] - values[1] else values[1] - values[0];
      var connected := rankDiff <= 0.083;
      assert connected == Equity.Connected(values[0], values[1]);
      ghost var bonus := Equity.Bonus(suited, connected);
      if suited && connected {
        strength := strength + 0.15;
      } else if suited {
        strength := strength + 0.07;
      } else if connected {
        strength := strength + 0.08;
      }
      assert strength == Equity.Strength(holeCards) + bonus;
      var capped := Min(0.95, Equity.Decayed(strength, stage));
      equity := if 0.05 >= capped then 0.05 else capped;
    }

    /** What one (response, probability) entry of the table adds to the EV:
        the pot when the villain folds, the showdown value (river) or the
        penalised bet (earlier streets) when called, the penalised bet when
        raised, nothing when the villain bets. */
    method ResponseTerm(resp: Action, prob: real, betSize: real) returns (term: real)
      requires EvCalculator.TermDefined(resp, CurrentSpot())
      ensures term == EvCalculator.Term(resp, prob, CurrentSpot(), betSize)
    {
      term := 0.0;
      if resp == Fold {
        term := prob * pot;
      } else if resp == Call {
        if stage == River {
          var equity := EstimateEquity();
          term := prob * EvCalculator.RiverCallPayoff(equity, pot, betSize);
        } else {
          var penalty := EvCalculator.CallPenalty(opponentType);
          term := prob * (-betSize * penalty);
        }
      } else if resp == Raise {
        var penalty := EvCalculator.RaisePenalty(opponentType);
        term := prob * (-betSize * penalty);
      } else if resp == Bet {
        term := prob * 0.0;
      }
    }

    /** The EV of an action: the response table's probability-weighted
        payoffs, accumulated entry by entry. */
    method CalculateEv(action: Action, betSize: real) returns (ev: real)
      requires EvCalculator.EvDefined(CurrentSpot(), action)
      ensures ev == EvCalculator.Ev(CurrentSpot(), action, betSize)
    {
      if action == Fold {
        return 0.0;
      }
      var respProbs := OpponentModel.Response(opponentType, action);
      ghost var spot := CurrentSpot();
      EvCalculator.ResponseTermsDefined(spot, action);
      ev := 0.0;
      var i := 0;
      while i < |respProbs|
        invariant 0 <= i <= |respProbs|
        invariant ev + EvCalculator.SumTerms(respProbs[i..], spot, betSize)
                  == EvCalculator.SumTerms(respProbs, spot, betSize)
      {
        var (resp, prob) := respProbs[i];
        EvCalculator.SumTermsFrom(respProbs, i, spot, betSize);
        var term := ResponseTerm(resp, prob, betSize);
        ev := ev + term;
        i := i + 1;
      }
      assert respProbs[i..] == [];
    }

    /** Whether a villain BET or RAISE is waiting for an answer; if so its
        amount becomes the bet to answer. Nothing else changes. */
    method IsBetInFront() returns (facing: bool)
      modifies this`lastBetAmount
      ensures facing == ActionPolicy.FacingBet(history)
      ensures lastBetAmount == if facing then history[|history| - 1].amount else old(lastBetAmount)
    {
      if history == [] {
        return false;
      }
      if history[|history| - 1].actor == Villain
         && (history[|history| - 1].action == Bet || history[|history| - 1].action == Raise) {
        lastBetAmount := history[|history| - 1].amount;
        return true;
      }
      return false;
    }

    /** The hero's decision and its EV; `coin` is the outcome of the 70%
        re-raise draw. */
    method OptimalAction(coin: bool) returns (action: Action, size: real, ev: real)
      requires EvCalculator.EvDefined(CurrentSpot(),
                                      ActionPolicy.Choose(history, heroStack, CurrentSpot(), coin).0)
      modifies this`lastBetAmount
      ensures (action, size) == ActionPolicy.Choose(history, heroStack, CurrentSpot(), coin)
      ensures ev == EvCalculator.Ev(CurrentSpot(), action, size)
      ensures lastBetAmount
        == if ActionPolicy.FacingBet(history) then history[|history| - 1].amount else old(lastBetAmount)
    {
      var facing := IsBetInFront();
      if facing {
        var villainAct := history[|history| - 1].action;
        var callAmt := Min(lastBetAmount, heroStack);
        var raiseAmt := Min(lastBetAmount * 2.0, heroStack);
        if (villainAct == Check || villainAct == Call) && raiseAmt > 0.0 {
          action, size := Raise, raiseAmt;
        } else if coin && raiseAmt > callAmt {
          action, size := Raise, raiseAmt;
        } else {
          action, size := Call, callAmt;
        }
      } else if stage == River {
        action, size := Bet, Min(pot * 0.5, heroStack);
      } else {
        var bluff := ActionPolicy.BluffAction(stage, opponentType, pot);
        var betSize := Min(bluff.1, heroStack);
        if betSize > 0.0 && heroStack > 0.0 {
          action, size := bluff.0, betSize;
        } else {
          action, size := Check, 0.0;
        }
      }
      ev := CalculateEv(action, size);
    }

    /** Record the hero's action and the villain's drawn response, and move
        both contributions, each clamped to its owner's stack, into the pot. */
    method ExecuteAction(action: Action, betSize: real, resp: Action)
      modifies this`history, this`decisionTree, this`heroStack, this`villainStack, this`pot
      ensures var heroPaid := Chips.HeroContribution(action, betSize, old(heroStack));
        var villainPaid := Chips.VillainContribution(resp, betSize, old(pot) + heroPaid, old(villainStack));
        && heroStack == old(heroStack) - heroPaid
        && villainStack == old(villainStack) - villainPaid
        && pot == old(pot) + heroPaid + villainPaid
        && history == old(history) + [Entry(Hero, action, betSize), Entry(Villain, resp, villainPaid)]
        && decisionTree == old(decisionTree)
             + [DecisionRecord(Hero, stage, action, betSize, old(pot), old(heroStack)),
                DecisionRecord(Villain, stage, resp, villainPaid, old(pot) + heroPaid, old(villainStack))]
      ensures TotalChips() == old(TotalChips())
      ensures old(ChipsValid()) && betSize >= 0.0 ==> ChipsValid()
    {
      var heroPaid := 0.0;
      if action == Call {
        heroPaid := Min(betSize, heroStack);
      } else if action == Bet || action == Raise || action == AllIn {
        heroPaid := Min(betSize, heroStack);
      }
      var potAfterHero := pot + heroPaid;
      var respAmount := 0.0;
      if resp == Call {
        respAmount := Min(betSize, villainStack);
      } else if resp == Raise {
        respAmount := Min(betSize * 2.0, villainStack);
      } else if resp == Bet {
        respAmount := Min(potAfterHero * 0.5, villainStack);
      }
      history := history + [Entry(Hero, action, betSize), Entry(Villain, resp, respAmount)];
      decisionTree := decisionTree
        + [DecisionRecord(Hero, stage, action, betSize, pot, heroStack),
           DecisionRecord(Villain, stage, resp, respAmount, potAfterHero, villainStack)];
      heroStack, villainStack, pot := heroStack - heroPaid, villainStack - respAmount, potAfterHero + respAmount;
    }

    /** Run the street machine on the history. */
    method UpdateStage()
      modifies this`stage, this`lastBetAmount
      ensures stage == StageMachine.NextStage(history, old(stage), heroStack, villainStack)
      ensures lastBetAmount == old(lastBetAmount)
    {
      if |history| < 2 {
        return;
      }
      if history[|history| - 2].action == Fold || history[|history| - 1].action == Fold {
        stage := Terminal;
        return;
      }
      if history[|history| - 2].action == Check && history[|history| - 1].action == Check {
        stage := StageMachine.Advance(stage);
      } else if history[|history| - 1].action == Call {
        var facing := IsBetInFront();
        if !facing {
          stage := StageMachine.Advance(stage);
        }
      }
      if heroStack == 0.0 || villainStack == 0.0 {
        stage := Showdown;
      }
    }

    /** One pass of the hand loop: decide, execute against the drawn
        response, run the street machine, and end the hand on a villain
        FOLD or an empty stack. */
    method PlayRound(draw: Draw) returns (action: Action, size: real, ev: real, resp: Action)
      requires WellFormedHand(holeCards) && stage != Terminal
      modifies this`stage, this`pot, this`heroStack, this`villainStack, this`history
      modifies this`lastBetAmount, this`decisionTree
      ensures (action, size) == ActionPolicy.Choose(old(history), old(heroStack), old(CurrentSpot()), draw.coin)
      ensures ev == EvCalculator.Ev(old(CurrentSpot()), action, size)
      ensures resp == Pick(draw, action)
      ensures var heroPaid := Chips.HeroContribution(action, size, old(heroStack));
        var villainPaid := Chips.VillainContribution(resp, size, old(pot) + heroPaid, old(villainStack));
        && heroStack == old(heroStack) - heroPaid
        && villainStack == old(villainStack) - villainPaid
        && pot == old(pot) + heroPaid + villainPaid
        && history == old(history) + [Entry(Hero, action, size), Entry(Villain, resp, villainPaid)]
        && decisionTree == old(decisionTree)
             + [DecisionRecord(Hero, old(stage), action, size, old(pot), old(heroStack)),
                DecisionRecord(Villain, old(stage), resp, villainPaid, old(pot) + heroPaid, old(villainStack))]
      ensures lastBetAmount
        == if ActionPolicy.FacingBet(old(history)) then old(history)[|old(history)| - 1].amount else old(lastBetAmount)
      ensures old(ChipsValid()) ==> ChipsValid()
      ensures resp == Fold ==> stage == Terminal
      ensures resp != Fold && (heroStack == 0.0 || villainStack == 0.0) ==> stage == Showdown
      ensures resp != Fold && heroStack != 0.0 && villainStack != 0.0 ==>
        stage == StageMachine.NextStage(history, old(stage), heroStack, villainStack)
    {
      action, size, ev := OptimalAction(draw.coin);
      resp := Pick(draw, action);
      ExecuteAction(action, size, resp);
      UpdateStage();
      if resp == Fold {
        stage := Terminal;
      } else if heroStack == 0.0 || villainStack == 0.0 {
        stage := Showdown;
      }
    }

    /** Give the whole pot to the winner. */
    method AwardPot(toHero: bool)
      modifies this`heroStack, this`villainStack
      ensures toHero ==> heroStack == old(heroStack) + pot && villainStack == old(villainStack)
      ensures !toHero ==> villainStack == old(villainStack) + pot && heroStack == old(heroStack)
    {
      if toHero {
        heroStack := heroStack + pot;
      } else {
        villainStack := villainStack + pot;
      }
    }

    /** Decide the winner of a finished hand and award the pot: after a fold
        the hero wins exactly when the villain folded last; at showdown
        `showdownDraw` stands for random.random() and the hero wins when it is
        below the showdown equity. */
    method Resolve(showdownDraw: real) returns (winner: Actor)
      requires WellFormedHand(holeCards)
      requires stage == Terminal || stage == Showdown
      requires stage == Terminal ==> history != []
      modifies this`heroStack, this`villainStack
      ensures heroStack + villainStack == old(TotalChips())
      ensures winner == Hero ==> heroStack == old(heroStack) + pot && villainStack == old(villainStack)
      ensures winner == Villain ==> villainStack == old(villainStack) + pot && heroStack == old(heroStack)
      ensures stage == Terminal ==>
        (winner == Hero <==> history[|history| - 1].actor == Villain && history[|history| - 1].action == Fold)
      ensures stage == Showdown ==> (winner == Hero <==> showdownDraw < Equity.Estimate(holeCards, Showdown))
      ensures old(ChipsValid()) ==> ChipsValid()
    {
      if stage == Terminal {
        var lastAction := history[|history| - 1];
        if lastAction.actor == Villain && lastAction.action == Fold {
          winner := Hero;
          AwardPot(true);
        } else {
          winner := Villain;
          AwardPot(false);
        }
      } else {
        var heroEquity := EstimateEquity();
        var heroWins := showdownDraw < heroEquity;
        winner := if heroWins then Hero else Villain;
        AwardPot(heroWins);
      }
    }

    /** One pass of the loop body: play the round and log its EV
        (decision_evs.append). */
    method LoggedRound(draw: Draw) returns (ev: real)
      requires WellFormedHand(holeCards) && stage != Terminal
      modifies this`stage, this`pot, this`heroStack, this`villainStack, this`history
      modifies this`lastBetAmount, this`decisionTree, this`decisionEvs
      ensures Snapshot() == Step(opponentType, old(holeCards), old(Snapshot()), draw)
      ensures decisionEvs == old(decisionEvs) + [ev]
    {
      ghost var s0 := Snapshot();
      var action, betSize, resp;
      action, betSize, ev, resp := PlayRound(draw);
      RoundIs(opponentType, holeCards, s0, draw, action, betSize, resp, Snapshot());
      decisionEvs := decisionEvs + [ev];
    }

    /** The hand loop: one round per draw while the hand is neither folded
        nor at showdown. The state it leaves is `Play` of the state it
        started from; the total is the sum of the EVs it logged. */
    method PlayRounds(draws: seq<Draw>) returns (totalEv: real, decisionCount: nat)
      requires WellFormedHand(holeCards)
      requires forall k :: 0 <= k < |draws| ==> ValidDraw(draws[k])
      modifies this`stage, this`pot, this`heroStack, this`villainStack, this`history
      modifies this`lastBetAmount, this`decisionTree, this`decisionEvs
      ensures Snapshot() == Play(opponentType, old(holeCards), old(Snapshot()), draws)
      ensures |decisionEvs| == |old(decisionEvs)| + decisionCount
      ensures totalEv == SumReals(decisionEvs[|old(decisionEvs)|..])
    {
      totalEv, decisionCount := 0.0, 0;
      ghost var s0 := Snapshot();
      assert draws[0..] == draws && decisionEvs[|s0.decisionEvs|..] == [];
      while decisionCount < |draws| && stage != Terminal && stage != Showdown
        invariant decisionCount <= |draws|
        invariant Play(opponentType, holeCards, Snapshot(), draws[decisionCount..]) == Play(opponentType, holeCards, s0, draws)
        invariant |decisionEvs| == |s0.decisionEvs| + decisionCount
        invariant totalEv == SumReals(decisionEvs[|s0.decisionEvs|..])
      {
        ghost var before := Snapshot();
        var ev := LoggedRound(draws[decisionCount]);
        PlayAdvance(opponentType, holeCards, s0, before, Snapshot(), draws, decisionCount);
        SumRealsSuffixAppend(before.decisionEvs, ev, decisionEvs, |s0.decisionEvs|);
        totalEv := totalEv + ev;
        decisionCount := decisionCount + 1;
      }
    }

    /** What follows the hand loop: a hand that is folded or at showdown is
        resolved and reported as (winner, net profit against the stack at
        the start of the hand, total EV, decision count, average EV); one
        that is neither gives None. */
    method Settle(totalEv: real, decisionCount: nat, showdownDraw: real) returns (outcome: Option<HandResult>)
      requires WellFormedHand(holeCards)
      requires stage == Terminal ==> history != []
      modifies this`heroStack, this`villainStack
      ensures outcome.None? <==> stage != Terminal && stage != Showdown
      ensures outcome.None? ==> heroStack == old(heroStack) && villainStack == old(villainStack)
      ensures outcome.Some? ==>
        var r := outcome.value;
        && r.totalEv == totalEv && r.decisionCount == decisionCount
        && r.avgEv == AverageEv(totalEv, decisionCount)
        && r.netProfit == heroStack - initialStack
        && heroStack + villainStack == old(TotalChips())
        && (r.winner == Hero ==> heroStack == old(heroStack) + pot && villainStack == old(villainStack))
        && (r.winner == Villain ==> villainStack == old(villainStack) + pot && heroStack == old(heroStack))
        && (stage == Terminal ==>
              (r.winner == Hero <==> history[|history| - 1].actor == Villain
                                     && history[|history| - 1].action == Fold))
        && (stage == Showdown ==>
              (r.winner == Hero <==> showdownDraw < Equity.Estimate(holeCards, Showdown)))
      ensures old(ChipsValid()) ==> ChipsValid()
    {
      if stage != Terminal && stage != Showdown {
        return None;
      }
      var winner := Resolve(showdownDraw);
      var netProfit := heroStack - initialStack;
      var avgEv := if decisionCount > 0 then totalEv / (decisionCount as real) else 0.0;
      outcome := Some(HandResult(winner, netProfit, totalEv, decisionCount, avgEv));
    }

    /** Play the hand out, one round per draw, until a fold or a showdown,
        then award the pot. None when the draws run out first. At showdown
        `showdownDraw` stands for random.random(): the hero wins when it is
        below the showdown equity. */
    method SimulateHand(draws: seq<Draw>, showdownDraw: real) returns (outcome: Option<HandResult>)
      requires WellFormedHand(holeCards)
      requires forall k :: 0 <= k < |draws| ==> ValidDraw(draws[k])
      requires stage == Terminal ==> history != []
      modifies this`stage, this`pot, this`heroStack, this`villainStack, this`history
      modifies this`lastBetAmount, this`decisionTree, this`decisionEvs
      ensures stage == Terminal ==> |history| > 0
      ensures var p := Play(opponentType, old(holeCards), old(Snapshot()), draws);
        && stage == p.stage && pot == p.pot && history == p.history
        && decisionTree == p.decisionTree && decisionEvs == p.decisionEvs && lastBetAmount == p.lastBetAmount
        && (outcome.None? <==> stage != Terminal && stage != Showdown)
        && (outcome.None? ==> heroStack == p.heroStack && villainStack == p.villainStack)
        && (outcome.Some? && outcome.value.winner == Hero ==>
              heroStack == p.heroStack + pot && villainStack == p.villainStack)
        && (outcome.Some? && outcome.value.winner == Villain ==>
              villainStack == p.villainStack + pot && heroStack == p.heroStack)
      ensures outcome.Some? ==>
        var r := outcome.value;
        && r.decisionCount == |decisionEvs| - |old(decisionEvs)|
        && r.totalEv == SumReals(decisionEvs[|old(decisionEvs)|..])
        && r.avgEv == AverageEv(r.totalEv, r.decisionCount)
        && r.netProfit == heroStack - initialStack
        && heroStack + villainStack == old(TotalChips())
        && (stage == Terminal ==>
              (r.winner == Hero <==> history[|history| - 1].actor == Villain
                                     && history[|history| - 1].action == Fold))
        && (stage == Showdown ==>
              (r.winner == Hero <==> showdownDraw < Equity.Estimate(holeCards, Showdown)))
        && (stage == Terminal && old(stage) != Terminal ==> r.winner == Hero)
      ensures old(ChipsValid()) ==> ChipsValid()
    {
      ghost var s0 := Snapshot();
      PlayConservesChips(opponentType, holeCards, s0, draws);
      if ValidState(s0) {
        PlayValid(opponentType, holeCards, s0, draws);
      }
      if s0.stage != Terminal {
        FoldEndsTheHand(opponentType, holeCards, s0, draws);
      }
      var totalEv, decisionCount := PlayRounds(draws);
      outcome := Settle(totalEv, decisionCount, showdownDraw);
    }
  }

  /** A fresh preflop hand on the button against the scaredy cat: the hero
      opens with a 3.0 raise worth 0.6, whatever the re-raise draw. */
  method OpeningRaiseAgainstScaredyCat(coin: bool) returns (action: Action, size: real, ev: real)
    ensures action == Raise && size == 3.0 && ev == 0.6
  {
    var m := new PokerDecisionModel(ScaredyCat, "BTN", 100.0, 100.0);
    m.StartHand(["7♦", "2♣"], [], "", "");
    action, size, ev := m.OptimalAction(coin);
    EvCalculator.ScaredyCatPreflopRaise(m.holeCards);
  }
}

=== FILE: opponent.dfy ===
/** The villain's response distribution for each archetype and hero action
    (PokerDecisionModel.opponent_response). A distribution is the dictionary
    as an ordered list of (label, probability) pairs, in insertion order. */
module OpponentModel {
  import opened PokerTypes

  type Distribution = seq<(Action, real)>

  /** The dictionary's keys, in order. */
  function Labels(d: Distribution): (ks: seq<Action>)
    ensures |ks| == |d|
    ensures forall k :: 0 <= k < |d| ==> ks[k] == d[k].0
  {
    if d == [] then [] else [d[0].0] + Labels(d[1..])
  }

  /** Sum of the dictionary's values. */
  function TotalProb(d: Distribution): real
  {
    if d == [] then 0.0 else d[0].1 + TotalProb(d[1..])
  }

  /** The probability the distribution gives a key (0 when it is not a key). */
  function Prob(d: Distribution, key: Action): real
  {
    if d == [] then 0.0
    else if d[0].0 == key then d[0].1
    else Prob(d[1..], key)
  }

  function Response(t: PlayerType, a: Action): (d: Distribution)
    ensures a == AllIn ==> d == [(Fold, 1.0)]
    ensures a != AllIn && IsAggressive(a) ==> Labels(d) == [Fold, Call, Raise]
    ensures a != AllIn && !IsAggressive(a) ==> Labels(d) == [Check, Bet]
    ensures forall k :: 0 <= k < |d| ==> 0.0 < d[k].1 <= 1.0
  {
    if a == AllIn then [(Fold, 1.0)]
    else
      match t
      case TightPassive =>
        if IsAggressive(a) then [(Fold, 0.65), (Call, 0.30), (Raise, 0.05)]
        else [(Check, 0.80), (Bet, 0.20)]
      case LooseAggressive =>
        if IsAggressive(a) then [(Fold, 0.10), (Call, 0.30), (Raise, 0.60)]
        else [(Check, 0.05), (Bet, 0.95)]
      case ScaredyCat =>
        if IsAggressive(a) then [(Fold, 0.80), (Call, 0.19), (Raise, 0.01)]
        else [(Check, 0.90), (Bet, 0.10)]
  }

  /** Every table is a probability distribution: its weights sum to one. */
  lemma {:induction false} ResponseSumsToOne(t: PlayerType, a: Action)
    ensures TotalProb(Response(t, a)) == 1.0
  {
    var d := Response(t, a);
    if |d| == 3 {
      assert TotalProb(d) == d[0].1 + (d[1].1 + (d[2].1 + TotalProb(d[3..])));
    } else if |d| == 2 {
      assert TotalProb(d) == d[0].1 + (d[1].1 + TotalProb(d[2..]));
    } else {
      assert TotalProb(d) == d[0].1 + TotalProb(d[1..]);
    }
  }

  /** The keys are distinct, so Prob reads the weight of the one pair holding the key. */
  lemma {:induction false} ProbOfKey(d: Distribution, k: nat)
    requires k < |d|
    requires forall i, j :: 0 <= i < j < |d| ==> d[i].0 != d[j].0
    ensures Prob(d, d[k].0) == d[k].1
  {
    if k > 0 {
      assert d[0].0 != d[k].0;
      assert d[1..][k - 1] == d[k];
      ProbOfKey(d[1..], k - 1);
    }
  }
}

=== FILE: policy.dfy ===
/** How the hero picks an action and a size
    (get_bluff_action, can_take_action, is_bet_in_front, optimal_action). */
module ActionPolicy {
  import opened PokerTypes
  import opened OpponentModel
  import opened EvCalculator

  /** The bluff sizing table: a 3.0 raise preflop, and after the flop a bet
      of a fraction of the pot that depends on the archetype. */
  function BluffAction(stage: Stage, t: PlayerType, pot: real): (b: (Action, real))
    ensures stage == Preflop ==> b == (Raise, 3.0)
    ensures stage != Preflop ==> b.0 == Bet
    ensures stage != Preflop && 0.0 <= pot ==> 0.4 * pot <= b.1 <= 0.6 * pot
    ensures stage != Preflop && t == ScaredyCat ==> b.1 == pot * 0.4
    ensures stage != Preflop && t == TightPassive ==> b.1 == pot * 0.6
    ensures stage != Preflop && t == LooseAggressive ==> b.1 == pot * 0.5
  {
    if stage == Preflop then (Raise, 3.0)
    else
      match t
      case ScaredyCat => (Bet, pot * 0.4)
      case TightPassive => (Bet, pot * 0.6)
      case LooseAggressive => (Bet, pot * 0.5)
  }

  /** CHECK and FOLD are always possible; anything else needs chips. */
  predicate CanTakeAction(a: Action, heroStack: real)
    ensures a == Check || a == Fold ==> CanTakeAction(a, heroStack)
    ensures heroStack <= 0.0 ==> (CanTakeAction(a, heroStack) <==> a == Check || a == Fold)
  {
    a == Check || a == Fold || heroStack > 0.0
  }

  /** An unanswered villain BET or RAISE ends the history. */
  predicate FacingBet(h: seq<Entry>)
    ensures h == [] ==> !FacingBet(h)
    ensures |h| > 0 && h[|h| - 1].actor == Hero ==> !FacingBet(h)
    ensures FacingBet(h) ==> IsAggressive(h[|h| - 1].action)
  {
    |h| > 0 && h[|h| - 1].actor == Villain && (h[|h| - 1].action == Bet || h[|h| - 1].action == Raise)
  }

  /** Every amount recorded in the history is non-negative. */
  predicate AmountsNonNegative(h: seq<Entry>)
  {
    forall k :: 0 <= k < |h| ==> h[k].amount >= 0.0
  }

  /** The hero's (action, size). Facing a bet, the villain's last amount is
      the bet to answer; `coin` is the outcome of the 70% re-raise draw. The
      first re-raise test (a recorded CHECK or CALL) is kept as written. */
  function Choose(h: seq<Entry>, heroStack: real, spot: Spot, coin: bool): (c: (Action, real))
    ensures c.0 != Fold && c.0 != AllIn
    ensures 0.0 <= heroStack && 0.0 <= spot.pot && AmountsNonNegative(h) ==> 0.0 <= c.1 <= heroStack
  {
    if FacingBet(h) then
      var villainAct := h[|h| - 1].action;
      var lastBet := h[|h| - 1].amount;
      var callAmt := Min(lastBet, heroStack);
      var raiseAmt := Min(lastBet * 2.0, heroStack);
      if (villainAct == Check || villainAct == Call) && raiseAmt > 0.0 then (Raise, raiseAmt)
      else if coin && raiseAmt > callAmt then (Raise, raiseAmt)
      else (Call, callAmt)
    else if spot.stage == River then (Bet, Min(spot.pot * 0.5, heroStack))
    else
      var bluff := BluffAction(spot.stage, spot.opponent, spot.pot);
      var size := Min(bluff.1, heroStack);
      if size > 0.0 && heroStack > 0.0 then (bluff.0, size) else (Check, 0.0)
  }

  /** The CHECK/CALL re-raise branch never fires: facing a bet means the
      last entry is a villain BET or RAISE. So facing a bet of b the hero
      re-raises to min(2b, stack) exactly when the draw says so and that is
      more than the call, and otherwise calls min(b, stack). */
  lemma FacingBetChoice(h: seq<Entry>, heroStack: real, spot: Spot, coin: bool)
    requires FacingBet(h)
    ensures var b := h[|h| - 1].amount;
      var callAmt := Min(b, heroStack);
      var raiseAmt := Min(b * 2.0, heroStack);
      Choose(h, heroStack, spot, coin)
        == if coin && raiseAmt > callAmt then (Raise, raiseAmt) else (Call, callAmt)
  {
  }

  /** With no bet to answer the hero never calls. On the river with half
      the pot behind it bets exactly half the pot; earlier, with chips and a
      pot, it makes the table's bluff; it checks exactly when it is not on
      the river and either its stack or the bluff size is not positive. */
  lemma NoBetChoice(h: seq<Entry>, heroStack: real, spot: Spot, coin: bool)
    requires !FacingBet(h)
    ensures Choose(h, heroStack, spot, coin).0 != Call
    ensures spot.stage == River && 0.0 <= spot.pot * 0.5 <= heroStack ==>
      Choose(h, heroStack, spot, coin) == (Bet, spot.pot * 0.5)
    ensures spot.stage != River && heroStack > 0.0 && spot.pot > 0.0 ==>
      Choose(h, heroStack, spot, coin).0 == BluffAction(spot.stage, spot.opponent, spot.pot).0
    ensures Choose(h, heroStack, spot, coin).0 == Check <==>
      spot.stage != River && (heroStack <= 0.0 || BluffAction(spot.stage, spot.opponent, spot.pot).1 <= 0.0)
  {
  }

  /** Whatever the policy chooses with chips behind it, or a check, is an
      action the stack allows. */
  lemma ChosenActionAllowed(h: seq<Entry>, heroStack: real, spot: Spot, coin: bool)
    requires 0.0 <= heroStack && 0.0 <= spot.pot && AmountsNonNegative(h)
    ensures var c := Choose(h, heroStack, spot, coin);
      c.1 > 0.0 || c.0 == Check ==> CanTakeAction(c.0, heroStack)
  {
  }

  /** At the start of a hand preflop (empty history, pot 1.5) against the
      scaredy cat the hero raises 3.0, worth 0.6. */
  lemma ScaredyCatOpeningRaise(cards: seq<string>, heroStack: real, coin: bool)
    requires heroStack >= 3.0
    ensures var spot := Spot(ScaredyCat, Preflop, 1.5, cards);
      Choose([], heroStack, spot, coin) == (Raise, 3.0) && Ev(spot, Raise, 3.0) == 0.6
  {
    ScaredyCatPreflopRaise(cards);
  }

  /** On the flop or the turn with the bluff not clamped by the stack, the
      bluff loses chips on average against the loose-aggressive villain and
      wins against the other two (0.10·pot − 0.645·pot = −0.545·pot against
      a bet of 0.5·pot, 0.44·pot, 0.72·pot). */
  lemma PostflopBluffEvSign(h: seq<Entry>, heroStack: real, spot: Spot, coin: bool)
    requires !FacingBet(h)
    requires spot.stage == Flop || spot.stage == Turn
    requires 0.0 < spot.pot && 0.6 * spot.pot <= heroStack
    ensures var c := Choose(h, heroStack, spot, coin);
      Ev(spot, c.0, c.1) < 0.0 <==> spot.opponent == LooseAggressive
  {
    var c := Choose(h, heroStack, spot, coin);
    var d := Response(spot.opponent, Bet);
    assert c.0 == Bet;
    AggressiveEvOffRiver(spot, Bet, c.1);
    AggressiveProbs(d);
  }
}

=== FILE: stage.dfy ===
/** The street state machine run after every hero/villain pair
    (PokerDecisionModel.update_stage). */
module StageMachine {
  import opened PokerTypes
  import ActionPolicy

  /** One street forward on PREFLOP → FLOP → TURN → RIVER → SHOWDOWN; the
      resolution phases stay where they are. */
  function Advance(s: Stage): (n: Stage)
    ensures s != Showdown && s != Terminal ==> StageIndex(n) == StageIndex(s) + 1 && n != Terminal
    ensures s == Showdown || s == Terminal ==> n == s
  {
    match s
    case Preflop => Flop
    case Flop => Turn
    case Turn => River
    case River => Showdown
    case _ => s
  }

  /** The betting on the street is closed: two checks in a row, or a call
      with no bet left to answer. */
  predicate StreetClosed(h: seq<Entry>)
    requires |h| >= 2
    ensures StreetClosed(h) ==> h[|h| - 1].action == Check || h[|h| - 1].action == Call
    ensures h[|h| - 1].action == Call ==> StreetClosed(h)
  {
    (h[|h| - 2].action == Check && h[|h| - 1].action == Check)
    || (h[|h| - 1].action == Call && !ActionPolicy.FacingBet(h))
  }

  function NextStage(h: seq<Entry>, stage: Stage, heroStack: real, villainStack: real): (n: Stage)
    ensures |h| < 2 ==> n == stage
    ensures |h| >= 2 && (h[|h| - 2].action == Fold || h[|h| - 1].action == Fold) ==> n == Terminal
    ensures (|h| >= 2 && h[|h| - 2].action != Fold && h[|h| - 1].action != Fold
             && (heroStack == 0.0 || villainStack == 0.0)) ==> n == Showdown
    ensures (|h| >= 2 && h[|h| - 2].action != Fold && h[|h| - 1].action != Fold
             && heroStack != 0.0 && villainStack != 0.0) ==>
      n == (if StreetClosed(h) then Advance(stage) else stage)
  {
    if |h| < 2 then stage
    else if h[|h| - 2].action == Fold || h[|h| - 1].action == Fold then Terminal
    else
      var s :=
        if h[|h| - 2].action == Check && h[|h| - 1].action == Check then Advance(stage)
        else if h[|h| - 1].action == Call && !ActionPolicy.FacingBet(h) then Advance(stage)
        else stage;
      if heroStack == 0.0 || villainStack == 0.0 then Showdown else s
  }

  /** A trailing CALL always closes the street: a CALL is never a bet to
      answer, so the facing-bet test in that rule cannot fail. */
  lemma TrailingCallAdvances(h: seq<Entry>, stage: Stage, heroStack: real, villainStack: real)
    requires |h| >= 2 && h[|h| - 1].action == Call && h[|h| - 2].action != Fold
    requires heroStack != 0.0 && villainStack != 0.0
    ensures NextStage(h, stage, heroStack, villainStack) == Advance(stage)
  {
  }

  /** From any street the stage never moves back: it advances by at most one
      street unless a fold or an empty stack forces a jump. */
  lemma NeverMovesBack(h: seq<Entry>, stage: Stage, heroStack: real, villainStack: real)
    requires stage != Terminal
    ensures var n := NextStage(h, stage, heroStack, villainStack);
      StageIndex(n) >= StageIndex(stage)
      && (n == Terminal || n == Showdown || StageIndex(n) <= StageIndex(stage) + 1)
  {
  }
}

=== FILE: types.dfy ===
/** Vocabulary shared by every component of the heads-up decision model:
    the opponent archetypes, the streets, the actions, the hand history
    and the decision log handed to the visualisation. */
module PokerTypes {

  datatype Option<T> = None | Some(value: T)

  /** The scripted villain profiles (PlayerType in holdem.py). */
  datatype PlayerType = TightPassive | LooseAggressive | ScaredyCat

  /** The streets, then the two resolution phases (GameStage). */
  datatype Stage = Preflop | Flop | Turn | River | Showdown | Terminal

  /** Hero actions; the villain's response labels are the same names. */
  datatype Action = Fold | Check | Call | Bet | Raise | AllIn

  datatype Actor = Hero | Villain

  /** One history tuple (actor, action name, amount). */
  datatype Entry = Entry(actor: Actor, action: Action, amount: real)

  /** One decision-tree record: who acted, on which street, what and how
      much, with the pot and the actor's stack seen before the chips moved. */
  datatype DecisionRecord = DecisionRecord(player: Actor, stage: Stage, action: Action,
                                           size: real, pot: real, stack: real)

  /** The part of the game state the EV calculator and the policy read:
      the villain's archetype, the street, the pot and the hole cards. */
  datatype Spot = Spot(opponent: PlayerType, stage: Stage, pot: real, cards: seq<string>)

  /** The ordinal of a stage (GameStage.value). */
  function StageIndex(s: Stage): nat
  {
    match s
    case Preflop => 0
    case Flop => 1
    case Turn => 2
    case River => 3
    case Showdown => 4
    case Terminal => 5
  }

  /** BET and RAISE draw the "facing aggression" response table. */
  predicate IsAggressive(a: Action)
  {
    a == Bet || a == Raise
  }

  /** Python's built-in min on two numbers. */
  function Min(a: real, b: real): (m: real)
    ensures m <= a && m <= b
    ensures m == a || m == b
  {
    if a <= b then a else b
  }

  /** Sum of a list of amounts, adding the last element last. */
  function SumReals(s: seq<real>): real
  {
    if s == [] then 0.0 else SumReals(s[..|s| - 1]) + s[|s| - 1]
  }

  /** Appending x to a list adds x to the sum of every suffix. */
  lemma SumRealsSuffixAppend(a: seq<real>, x: real, b: seq<real>, k: nat)
    requires k <= |a| && b == a + [x]
    ensures SumReals(b[k..]) == SumReals(a[k..]) + x
  {
    var t := b[k..];
    assert t[..|t| - 1] == a[k..];
  }

  /** Two hole cards, each with a rank character and a suit character:
      everything the equity heuristic indexes. */
  predicate WellFormedHand(cards: seq<string>)
  {
    |cards| >= 2 && |cards[0]| >= 2 && |cards[1]| >= 2
  }
}
